=== FILE: README.md ===
# Eden Presence core, modelled in Dafny

This project models the decision and bookkeeping logic of the Eden Presence
build scripts. The Blender calls themselves are not modelled. The scripts are:

- `create_avatar.py` builds the avatar. It reads the configuration, clears
  the scene, sizes a torso and a head from the biometrics, and binds one
  emission material to every mesh. If a kinematic profile exists, it rigs
  one bone and keys a sway or a static pose from the gestural archetype.
  The joint fluidity picks one interpolation mode for every key. Last, it
  sets the render range.
- `ssi_core/logic/gme_core.py` builds the anchored primitive. It is a unit
  cube whose vertices are scaled per axis by multiples of L-alpha-7. The
  file also holds the refractive "Obsidian Gallery" material and the
  tagging layer, which writes identity metadata.
- `ssi_core/simulation/atmospheric_simulation.py` builds the atmosphere. A
  volumetric domain carries a volume-scatter material. It also has a
  particle system that instances a small halo icosphere with a mixed
  transparent/emission material.
- `ssi_core/protocol_manager.py` wraps rendering data in a
  "System-Diagnostic" envelope. The conduit hands the payload to a callback
  only when the payload type is "Alpha-40".
- `ssi_core/kernel/chronos.py` holds the Chronos state: the time of the last
  interaction. It derives resonance ids from timestamps, checks ids against
  a one-hour window, and filters packets into themselves or a noise label.

The scene is an immutable value: a sequence of objects, each with a
transform, mesh or armature data, material slots, parent, modifiers,
custom properties and particle systems. Each material is a shader-node
graph. All four graphs use one datatype (`ShaderGraph.Graph`) and one
well-formedness predicate (`ShaderGraph.WellFormed`). That predicate
requires typed links, exactly one output sink, no input slot fed twice, and
a path from every node to the sink. Decoded JSON (configurations, envelopes,
packets, the state file) is `Json.Value`, with Python's dict-access and
numeric-coercion rules. The clock is a `now: real` parameter. Python's
string-to-float parser is a `parse: string -> Option<real>` parameter.
Files that may be missing are `Missing`/`NotFound` variants.

Files: `common.dfy`, `json.dfy`, `shader_graph.dfy`, `materials.dfy`,
`keyframes.dfy`, `scene.dfy`, `avatar.dfy`, `gme.dfy`, `atmosphere.dfy`,
`protocol.dfy`, `chronos.dfy`.

Some behaviour of the code is easy to expect otherwise. The model follows
the code as written:
- The biometric lengths are never checked for positivity.
- The emission strength is the constant 150 and ignores the luminescence
  target.
- A configuration field of the wrong type raises TypeError only after the
  scene has been cleared, leaving whatever was built up to that point.
- A kinematics file without its fields raises KeyError only after the rig
  has been built and the meshes parented.
- A rejected envelope is only printed. No error is raised.
- There is no run-time choice of material strategy. Each script hard-codes
  its graph.
- The halo material is commented as "mostly transparent", but its wiring
  puts the transparent BSDF in the mix's first shader input and the
  emission in the second. At factor 0.8 the mix is 80% emission. The model
  follows the wiring.

## Model

| member | source | states |
|---|---|---|
| Avatar.ReadFields | create_avatar.py:8-18 | the configuration block succeeds iff both groups are objects holding all seven fields, and then yields exactly those seven values; an absent group is the KeyError raised and a non-object config is a TypeError |
| Avatar.ConvertFields | create_avatar.py:30-43 | the fields convert iff the three lengths are numbers or booleans and the name is a string; the record holds exactly those numbers and the untouched unused fields; any failure is a TypeError |
| Avatar.ReadConfig | create_avatar.py:8-43 | a configuration reads iff it is well shaped, and then every field of the record is the file's field (lengths as their numbers); the first missing group is the KeyError raised |
| Avatar.ReadConfigRoundTrip | create_avatar.py:8-18 | reading back the file written from a configuration record gives that record |
| Avatar.Length | create_avatar.py:30-37 | a length is usable in the sizing arithmetic iff it is a number or a boolean, and then it is that number |
| Avatar.FreshCube | create_avatar.py:31 | the cube as first added: unit size, unit scale, centred half the torso height up, under Blender's default name "Cube" |
| Avatar.Torso | create_avatar.py:27-34 | the torso is a unit cube named "Torso" scaled (shoulder_width·0.01, 0.2, torso_length·0.01), its base at z = 0 and its top at the torso height |
| Avatar.Head | create_avatar.py:36-40 | the head is a sphere of radius height·0.01·0.07 whose bottom is at the torso height |
| Avatar.HeadRestsOnTorso | create_avatar.py:30-40 | the head's bottom is exactly the torso's top, whatever the shoulder width |
| Avatar.Body | create_avatar.py:29-67 | after the build step the scene holds Torso (a cube) then Head (a sphere of the head radius), both meshes, each with exactly the avatar material in its slots |
| Avatar.ReadKinematics | create_avatar.py:101-103 | the kinematic profile reads iff the `kinematics` group and both its fields exist, and yields exactly those field values |
| Avatar.Animate | create_avatar.py:72-138 | a missing file skips everything; otherwise the meshes are parented and a one-bone armature spans (0,0,0)→(0,0,torso height); missing fields abort with no keys; a non-numeric fluidity aborts with TypeError after the table's keys are in; an animated result keys exactly the archetype's table with one mode, BEZIER iff fluidity > 0.75 |
| Avatar.BuildFromConfig | create_avatar.py:20-156 | every mesh carries exactly the avatar material; with a kinematics file the body is rigged; a completed build ends at frame 240 and a crash leaves frame_end as it was; a missing kinematics file yields just the unparented body |
| Avatar.BuildFollowsAnimate | create_avatar.py:143-156 | with a kinematics file, the build completes, animated, with `Animate`'s objects exactly when `Animate` succeeds, and otherwise crashes with `Animate`'s objects and error |
| Avatar.LoadedBuild | create_avatar.py:72-156 | with a kinematics file, the build completes iff the file is animatable, and then it is keyed with the archetype's table in the fluidity's mode; a missing field crashes with KeyError and no keys; a non-numeric fluidity crashes with TypeError with the table keyed |
| Avatar.BuildFromFields | create_avatar.py:20-43 | after the configuration block the scene is cleared; a non-numeric torso length crashes on the empty scene, a non-numeric shoulder width with the fresh cube only, a non-numeric height with Torso only, a non-string name with Torso and Head, all unmaterialled; well-typed fields go on to the full build |
| Avatar.BuildAvatar | create_avatar.py:4-156 | a missing field or non-object group aborts with the scene untouched; a field of the wrong type aborts with TypeError on the cleared scene holding only unmaterialled meshes; a well-shaped configuration is exactly the build from its record; with no kinematics file that is Torso and Head, unanimated and unparented |
| Avatar.ClearThenBuild | create_avatar.py:21-23 | once every field is present, the objects built do not depend on the prior scene, and a completed build is the same whatever the prior scene |
| Avatar.UnusedFieldsIgnored | create_avatar.py:11-18 | limb ratio, luminescence target and transparency do not influence the avatar |
| Scene.Clear | create_avatar.py:21-23 | clearing leaves no objects and keeps the scene settings |
| Scene.MapMeshes | create_avatar.py:65-67 | a per-mesh update changes each mesh by the update and leaves every other object, the order and the count unchanged |
| Scene.BindMaterial | create_avatar.py:64-67 | each mesh gains the material as its last slot with nothing else changed; no non-mesh object is touched |
| Scene.ParentMeshes | create_avatar.py:92-98 | each mesh gets the armature as parent plus an Armature modifier on it; nothing else changes |
| Materials.AvatarMaterial | create_avatar.py:43-62 | a well-formed two-node graph, emission "Emission"→output "Surface", strength 150 and colour (1.0, 0.9, 0.7, 1.0), named by the configuration |
| Materials.ChainWellFormed | create_avatar.py:52-62 | any single source node linked through one of its sockets into an output slot is a well-formed graph |
| Keyframes.InsertKey | create_avatar.py:113-125 | inserting a key keeps a curve strictly increasing in frame; a frame later than all others is appended |
| Keyframes.InsertKeyPlaces | create_avatar.py:113-125 | after insertion the curve holds a key at the frame with the inserted value |
| Keyframes.InsertKeyOnly | create_avatar.py:113-125 | insertion adds no other key: every key of the result is at the inserted frame or was in the curve before |
| Keyframes.InsertKeyKeeps | create_avatar.py:113-125 | every key at another frame survives insertion unchanged |
| Keyframes.InsertRotationKey | create_avatar.py:112-113 | keying rotation_euler creates the x/y/z curves on first use and keys each axis's component |
| Keyframes.RunScript | create_avatar.py:108-129 | running pose statements leaves either no curves or the three rotation curves, and curves once created persist |
| Keyframes.SwayScriptSteps | create_avatar.py:108-125 | the sway script keys frames 1, 60, 180, 240 in that order with rotations 0, (0.05,0,0), (−0.05,0,0), 0 |
| Keyframes.SwayScriptKeys | create_avatar.py:108-125 | the sway leaves each curve with exactly the four table keys in order; y and z stay 0 |
| Keyframes.StaticScriptKeys | create_avatar.py:127-129 | the static pose leaves one neutral key at frame 1 on each curve |
| Keyframes.ScriptFollowsTable | create_avatar.py:107-129 | for any archetype the pose statements key exactly the archetype's lookup table |
| Keyframes.InterpolationFor | create_avatar.py:135-138 | BEZIER iff fluidity > 0.75, LINEAR iff fluidity ≤ 0.75, unclamped |
| Keyframes.SetInterpolation | create_avatar.py:133-138 | every key of every curve gets the one mode; frames and values stay |
| Keyframes.SetInterpolationKeepsTable | create_avatar.py:133-138 | curves that follow a table still follow it after re-moding, with the new mode uniform |
| Gme.CubeVertices | ssi_core/logic/gme_core.py:15 | the cube primitive has eight vertices, every coordinate ±size/2, pairwise distinct for a non-zero size, so exactly the eight corners |
| Gme.AnchorVertex | ssi_core/logic/gme_core.py:22-25 | anchoring preserves the sign of every coordinate |
| Gme.AnchorRoundTrip | ssi_core/logic/gme_core.py:22-25 | anchoring is inverted exactly by dividing by L, L/2 and 2L |
| Gme.AnchorVertices | ssi_core/logic/gme_core.py:22-25 | the vertex loop keeps count and order and anchors each vertex on its own |
| Gme.AnchorVerticesSplit | ssi_core/logic/gme_core.py:22-25 | anchoring a concatenation is the concatenation of the anchorings |
| Gme.AnchorCoordinates | ssi_core/logic/gme_core.py:8-27 | one new object with the given name, at (0,0,1), mesh = anchored unit cube, existing objects untouched |
| Gme.AnchorCoordinatesDefaultName | ssi_core/logic/gme_core.py:8 | called without a name, the object is named "Anchored_Manifestation" |
| Gme.AnchoredCubeExtents | ssi_core/logic/gme_core.py:14-25 | every anchored coordinate is ±L/2 in x, ±L/4 in y, ±L in z, and each of the six extremes is reached by some vertex |
| Materials.ObsidianMaterial | ssi_core/logic/gme_core.py:29-60 | a well-formed two-node graph, principled "BSDF"→output "Surface", IOR 1.5, transmission 1.0, roughness 0.05, base colour (0.8, 0.9, 1.0, 1.0) |
| Gme.UserIdentity | ssi_core/logic/gme_core.py:68-77 | the identity is the state file's "architect" entry, "Unknown" if the key or the file is missing, AttributeError for a non-object file |
| Gme.ApplyTaggingLayer | ssi_core/logic/gme_core.py:62-85 | exactly the three tag keys are set (identity, "Resolute", "GME-V1"); other properties and the rest of the object are kept |
| Materials.ScatterSettings | ssi_core/simulation/atmospheric_simulation.py:62-67 | density 0.02 always; "rayleigh" adds colour (0.3, 0.4, 0.8, 1.0) and anisotropy 0; any other model sets nothing else |
| Materials.AtmosphericMaterial | ssi_core/simulation/atmospheric_simulation.py:54-72 | a well-formed two-node graph whose scatter node feeds the output's Volume slot and not its Surface slot |
| Materials.UnknownScatteringModelsAgree | ssi_core/simulation/atmospheric_simulation.py:65-67 | every non-"rayleigh" model gives the same material |
| Materials.HaloReachesSink | ssi_core/simulation/atmospheric_simulation.py:38-41 | in the halo graph every node reaches the output within four links |
| Materials.HaloWellFormed | ssi_core/simulation/atmospheric_simulation.py:24-41 | the halo graph is well formed: one sink, typed links, no doubly-fed slot |
| Materials.HaloMaterial | ssi_core/simulation/atmospheric_simulation.py:12-43 | four nodes and three links: transparent→mix slot 1, emission→mix slot 2, mix→output Surface; Fac 0.8, strength 10, warm white |
| ShaderGraph.ReachesHasPath | ssi_core/simulation/atmospheric_simulation.py:38-41 | the reachability check is sound: it holds only when a chain of links reaches the sink |
| ShaderGraph.PathReaches | ssi_core/simulation/atmospheric_simulation.py:38-41 | the reachability check is complete for chains within its bound |
| ShaderGraph.WellFormedNodesHavePaths | ssi_core/simulation/atmospheric_simulation.py:38-41 | in a well-formed graph every node lies on a chain of links to the sink |
| Atmosphere.Trunc | ssi_core/simulation/atmospheric_simulation.py:88 | `int()` truncates toward zero: within one unit of its argument, on the same side of zero |
| Atmosphere.ParticleCount | ssi_core/simulation/atmospheric_simulation.py:88 | the count is 10000·humidity truncated toward zero: the largest integer not above it for humidity ≥ 0, the smallest not below it for humidity < 0 |
| Atmosphere.ParticleCountSign | ssi_core/simulation/atmospheric_simulation.py:88 | count ≥ 0 iff 10000·humidity > −1; count > 0 iff 10000·humidity ≥ 1 |
| Atmosphere.Particles | ssi_core/simulation/atmospheric_simulation.py:84-95 | emission on frame 1 only, lifetime 1000, physics 'NO', rendered as the halo object |
| Atmosphere.Domain | ssi_core/simulation/atmospheric_simulation.py:49-95 | a size-20 cube at (0,0,10) resting on z = 0, with only the volume material and the particle system |
| Atmosphere.Halo | ssi_core/simulation/atmospheric_simulation.py:3-10 | a radius-0.01, two-subdivision icosphere with only the halo material and no particles |
| Atmosphere.SetupAtmosphere | ssi_core/simulation/atmospheric_simulation.py:45-97 | existing objects untouched, then the domain, then the halo; the domain's particles instance the halo |
| Atmosphere.DomainMaterialsWellFormed | ssi_core/simulation/atmospheric_simulation.py:45-79 | the domain is a mesh and every material it carries is a well-formed graph |
| Atmosphere.HaloMaterialsWellFormed | ssi_core/simulation/atmospheric_simulation.py:3-43 | the halo is a mesh and every material it carries is a well-formed graph |
| Atmosphere.MaterialsDiffer | ssi_core/simulation/atmospheric_simulation.py:74-79 | the volume material of every scattering model differs from the halo material |
| Atmosphere.SetupAtmosphereRenders | ssi_core/simulation/atmospheric_simulation.py:45-97 | both new objects are meshes whose every material is well formed; neither carries the other's material; the object the particles instance is in the scene and carries the halo material |
| Protocol.Encapsulate | ssi_core/protocol_manager.py:4-19 | the envelope has exactly a header and the unchanged payload; the header has protocol "System-Diagnostic", carrier "Safety", the timestamp and payload type "Alpha-40" |
| Protocol.PayloadType | ssi_core/protocol_manager.py:27 | a missing header, or a header without `payload_type`, reads as None; a present type is read as is; a non-dict envelope or header raises AttributeError and nothing else fails |
| Protocol.Conduit | ssi_core/protocol_manager.py:21-31 | delivered iff the payload type is "Alpha-40" and a payload exists, with that payload; rejected iff the type differs; KeyError for a match with no payload; a non-dict envelope or header raises its AttributeError unchanged |
| Protocol.EnvelopeRoundTrip | ssi_core/protocol_manager.py:4-29 | the conduit delivers exactly what was wrapped, once |
| Protocol.MismatchNeverDelivers | ssi_core/protocol_manager.py:27-31 | a missing header, a missing payload type or any other payload type is rejected without an exception |
| Protocol.InitiateSafetyProtocol | ssi_core/protocol_manager.py:33-45 | the callback receives exactly the whole configuration |
| Json.Get | ssi_core/logic/gme_core.py:75 | `dict.get` gives the entry or the default; a non-dict raises AttributeError |
| Json.Index | create_avatar.py:101-103 | `d[key]` gives the entry; KeyError for a missing key, TypeError when `d` is not a dict |
| Json.AsReal | create_avatar.py:135 | a value takes part in `> 0.75` iff it is a number or a boolean, as itself or as 0/1 |
| Json.ToFloat | ssi_core/kernel/chronos.py:42-46 | `float()` succeeds on numbers, booleans and parsable strings, giving the number, 0/1 and the parsed value; ValueError for other strings, TypeError for null, lists and dicts |
| Chronos.Init | ssi_core/kernel/chronos.py:14-15 | the state starts at the creation time |
| Chronos.LogInteraction | ssi_core/kernel/chronos.py:17-24 | the last-interaction time becomes `now` and the id divided by L is `now` |
| Chronos.IdTimestamp | ssi_core/kernel/chronos.py:42-43 | an id has a timestamp iff it converts to float, and the timestamp times L is that float |
| Chronos.IsValidResonanceId | ssi_core/kernel/chronos.py:36-46 | an id is valid iff `float()` accepts it and the float exceeds (now − 3600)·L; a conversion error makes it invalid rather than raising |
| Chronos.ProcessDataPacket | ssi_core/kernel/chronos.py:26-34 | the result is the packet itself iff it has a valid "resonance_id", otherwise the exact noise label |
| Chronos.LoggedIdValidity | ssi_core/kernel/chronos.py:17-46 | an id logged at t is valid at `now` iff now − t < 3600, so future ids count as valid |
| Chronos.FreshPacketPasses | ssi_core/kernel/test_chronos.py:18-25 | a packet carrying a freshly logged id passes the filter unchanged |
| Chronos.NonNumericIdIsNoise | ssi_core/kernel/chronos.py:26-46 | a packet whose id `float()` rejects is the noise label at every clock reading |
| Chronos.NumericIdFilter | ssi_core/kernel/chronos.py:26-46 | a packet with numeric id x passes iff x > (now − 3600)·L, else it is the noise label; a packet without an id is noise |
| Chronos.CalculateDeltaTime | ssi_core/kernel/chronos.py:48-53 | delta is now minus the last interaction; longing iff delta > 14400, strictly |
| Chronos.DeltaAfterLog | ssi_core/kernel/chronos.py:22-53 | right after logging at t, the measured gap is now − t and longing holds iff it exceeds 14400 |

## Left out

- Blender operator and data-API mechanics are not modelled. This covers
  primitive creation, `matrix_parent_inverse`, modifier and constraint
  objects, and particle-system plumbing. Objects are abstract records.
- Blender renames clashing names ("Torso.001"). That is not modelled:
  objects keep the names the scripts give them.
- Materials from earlier builds stay in the file's material list. That list
  is not modelled. Only the material slots on objects are.
- Select-all plus delete only removes selectable, visible objects. `Scene.Clear`
  removes every object.
- File and JSON I/O is not modelled. Files are passed in as decoded values,
  or as a missing-file variant. A file that fails to decode would raise an
  exception in the source; that case is not modelled.
- `print` diagnostics are left out, including the longing-state trigger.
  The trigger is reported as the `longing` flag of `Chronos.CalculateDeltaTime`.
- The camera (create_avatar.py:146-149) is left out: the script adds a
  Camera object at (0, −5, 1.5), tilts it 1.3 rad about x and makes it the
  scene camera. The FFMPEG format and output path settings are left out
  too; they only configure rendering.
- Node input values the scripts do not set keep Blender's defaults. Those
  defaults are not modelled; only the set values are recorded.
- Python floats are modelled as exact reals throughout. IEEE-754 rounding,
  NaN and infinities are not. Consequences: the head's bottom equals the
  torso's top exactly (`Avatar.HeadRestsOnTorso`), while in doubles
  `(th + hr) - hr` need not be `th`. `json.load` accepts NaN and Infinity:
  a NaN fluidity selects LINEAR (create_avatar.py:135), and `int(10000*h)`
  raises ValueError for a NaN humidity and OverflowError for an infinite
  one (ssi_core/simulation/atmospheric_simulation.py:88). `float()` of an
  integer id beyond double range raises OverflowError, which
  `process_data_packet` does not catch (ssi_core/kernel/chronos.py:45).
  Blender stores vertex coordinates as 32-bit floats
  (ssi_core/logic/gme_core.py:23-25). None of this is modelled.
- Avatar.BuildAvatar: a boolean length takes part in the arithmetic as 0 or
  1, as in Python. Blender's own type checks on a non-string material name
  are modelled as the TypeError `bpy.data.materials.new` raises.
- Avatar.Animate: Blender removes a bone of zero length when it leaves edit
  mode, so for a torso length of 0 (or within about 1e-4 cm of it)
  `armature.pose.bones[0]` at create_avatar.py:105 raises IndexError after
  the kinematic reads. The model keeps the degenerate bone and animates it.
- Avatar.ClearThenBuild: deleting objects does not delete materials. On a
  second run in the same file, `bpy.data.materials.new` names the new
  material "<name>.001", so a completed build is the same scene whatever it
  started from only when the file holds no material of that name.
- Materials.AvatarMaterial: the material keeps the configuration's name
  verbatim. Blender's `bpy.data.materials.new` changes it in three cases,
  none modelled: a name already taken gets a numeric suffix (".001"), an
  empty name becomes "Material", and a name longer than Blender's 63-byte
  ID-name limit is truncated.
- Avatar.BuildAvatar: the finished scene omits the Camera object that
  create_avatar.py:146 adds after the animation, so a completed build is
  [Torso, Head] or [Torso, Head, AvatarArmature] here, and the source's
  scene has the camera after those.
- Avatar.Head: `primitive_uv_sphere_add` clamps its radius at 0, so a
  negative `height_cm` gives a radius-0 head in Blender; the model keeps
  the negative radius as computed.
- Keyframes.InsertKey: a second key at an existing frame replaces that key's
  value and keeps its interpolation. This is an assumption about Blender;
  the scripts never key the same frame twice.
- Keyframes.NewKeyInterpolation: new keys start as BEZIER, which is Blender's
  default preference. A numeric fluidity overwrites it on every key. A
  non-numeric fluidity raises TypeError at the first comparison of the loop
  (create_avatar.py:135), so on that crash path every key keeps this
  default, as `Avatar.LoadedBuild` states.
- Chronos.LoggedIdValidity: the round trip holds in exact real arithmetic.
  With IEEE doubles, `(t·L)/L` can differ from `t` in the last bit, so a
  window boundary could move by that amount.
- Chronos.ProcessDataPacket: only dict packets are modelled. For a string or
  list packet, Python's `in` and indexing behave differently.
- Atmosphere.ParticleCount: Blender's range limits on the count property are
  not modelled. The humidity is taken as a real, so non-numeric humidity is
  not covered.
- Atmosphere.SetupAtmosphere: the scattering model is taken as a string. The
  3D cursor position is a parameter.
- Gme.ApplyTaggingLayer: Blender's limits on the value types a custom
  property accepts are not modelled.
- Protocol.Conduit: what the callback does with the payload is outside this
  model. A delivery records that the callback was called once, and with what.
- Only the four shader graphs the scripts build are modelled.
- The network client with its retry loop (run_gemini_protocol.py) is left
  out.
- The distance heuristics are left out (ssi_core/logic/heuristic_interface.py,
  run_heuristic_audit.py). They use floating-point square roots and file writes.
- Sensory input is left out (ssi_core/logic/sensory_input.py). It forwards
  JSON to an external engine.
- The biometric bridge is left out (ssi_core/logic/biometric_bridge.py). It
  reads a file around one threshold call.
- The observer node is left out (ssi_core/logic/observer_node.py). It wraps
  a Blender Track-To constraint.
- The resonance verification driver is left out
  (ssi_core/kernel/resonance_verification.py). It is a script that only prints.

=== FILE: atmosphere.dfy ===
/** The atmospheric simulation (atmospheric_simulation.py): a large cube as
    volumetric domain with a volume-scatter material, and a particle system
    on it that instances a tiny glowing icosphere. */
module Atmosphere {
  import opened Common
  import opened ShaderGraph
  import opened Materials
  import opened Scene

  const DomainName: string := "AtmosphericDomain"
  const DomainSize: real := 20.0
  const DomainLocation: Vec3 := Vec3(0.0, 0.0, 10.0)
  const HaloName: string := "HaloParticleObject"
  const HaloRadius: real := 0.01
  const HaloSubdivisions: nat := 2
  const ParticlesPerUnitHumidity: real := 10000.0
  const ParticleLifetime: int := 1000

  /** Python `int(x)` on a float: truncation toward zero. */
  function Trunc(x: real): (n: int)
    ensures x >= 0.0 ==> 0 <= n && n as real <= x < n as real + 1.0
    ensures x < 0.0 ==> n <= 0 && n as real - 1.0 < x <= n as real
  {
    if x >= 0.0 then x.Floor else -((-x).Floor)
  }

  /** `int(10000 * humidity_coefficient)`. */
  function ParticleCount(humidity: real): (n: int)
    ensures humidity >= 0.0 ==> 0 <= n && n as real <= ParticlesPerUnitHumidity * humidity < n as real + 1.0
    ensures humidity < 0.0 ==> n <= 0 && n as real - 1.0 < ParticlesPerUnitHumidity * humidity <= n as real
  {
    Trunc(ParticlesPerUnitHumidity * humidity)
  }

  /** Truncation toward zero keeps the count non-negative exactly down to
      a humidity just above -1/10000, and no further. */
  lemma ParticleCountSign(humidity: real)
    ensures ParticleCount(humidity) >= 0 <==> ParticlesPerUnitHumidity * humidity > -1.0
    ensures ParticleCount(humidity) > 0 <==> ParticlesPerUnitHumidity * humidity >= 1.0
  {
  }

  /** The particle settings: everything emitted on frame 1, living 1000
      frames, no physics, each particle drawn as the halo object. */
  function Particles(humidity: real): (p: ParticleSettings)
    ensures p.count == ParticleCount(humidity)
    ensures p.frameStart == 1 && p.frameEnd == 1
    ensures p.lifetime == ParticleLifetime
    ensures p.physicsType == "NO" && p.renderType == "OBJECT" && p.instanceObject == HaloName
  {
    ParticleSettings("AtmosphericParticles", ParticleCount(humidity), 1, 1, ParticleLifetime, "NO", "OBJECT", HaloName)
  }

  /** The volumetric domain: a 20-unit cube centred ten units up, with the
      volume material and the particle system. */
  function Domain(humidity: real, scatteringModel: string): (domain: SceneObject)
    ensures domain.name == DomainName && IsMesh(domain)
    ensures domain.data.primitive == Cube(DomainSize) && domain.location == DomainLocation
    ensures BottomZ(domain) == 0.0
    ensures domain.data.materials == [AtmosphericMaterial(scatteringModel)]
    ensures domain.particles == [Particles(humidity)]
  {
    var material := AtmosphericMaterial(scatteringModel);
    SceneObject(DomainName, MeshData(Cube(DomainSize), [material]), DomainLocation, UnitScale, None, [], map[], [Particles(humidity)])
  }

  /** The halo particle: a radius-0.01 icosphere with the halo material,
      placed at the 3D cursor as primitives added without a location are. */
  function Halo(cursor: Vec3): (halo: SceneObject)
    ensures halo.name == HaloName && IsMesh(halo)
    ensures halo.data.primitive == IcoSphere(HaloRadius, HaloSubdivisions) && halo.location == cursor
    ensures halo.data.materials == [HaloMaterial()]
    ensures halo.particles == []
  {
    var material := HaloMaterial();
    SceneObject(HaloName, MeshData(IcoSphere(HaloRadius, HaloSubdivisions), [material]), cursor, UnitScale, None, [], map[], [])
  }

  /** `setup_atmosphere`: the existing objects untouched, then the domain,
      then the halo the domain's particles instance. */
  function SetupAtmosphere(objs: seq<SceneObject>, humidity: real, scatteringModel: string, cursor: Vec3): (r: seq<SceneObject>)
    ensures |r| == |objs| + 2 && r[..|objs|] == objs
    ensures r[|objs|] == Domain(humidity, scatteringModel)
    ensures r[|objs| + 1] == Halo(cursor)
    ensures r[|objs|].particles[0].instanceObject == r[|objs| + 1].name
  {
    objs + [Domain(humidity, scatteringModel), Halo(cursor)]
  }

  /** Every material the domain carries is a well-formed graph. */
  lemma DomainMaterialsWellFormed(humidity: real, scatteringModel: string)
    ensures IsMesh(Domain(humidity, scatteringModel))
    ensures forall m :: m in Domain(humidity, scatteringModel).data.materials ==> WellFormed(m.graph)
  {
    var volume := AtmosphericMaterial(scatteringModel);
    assert Domain(humidity, scatteringModel).data.materials == [volume];
  }

  /** Every material the halo carries is a well-formed graph. */
  lemma HaloMaterialsWellFormed(cursor: Vec3)
    ensures IsMesh(Halo(cursor))
    ensures forall m :: m in Halo(cursor).data.materials ==> WellFormed(m.graph)
  {
    var halo := HaloMaterial();
    assert Halo(cursor).data.materials == [halo];
  }

  /** The volume and halo materials are different materials. */
  lemma MaterialsDiffer(scatteringModel: string)
    ensures AtmosphericMaterial(scatteringModel) != HaloMaterial()
  {
    assert AtmosphericMaterial(scatteringModel).name != HaloMaterial().name;
  }

  /** Everything the setup adds renders: both new objects are meshes whose
      every material is a well-formed graph, neither carries the other's
      material, and the object the particles instance is in the scene and
      carries the halo material. */
  lemma SetupAtmosphereRenders(objs: seq<SceneObject>, humidity: real, scatteringModel: string, cursor: Vec3)
    ensures var r := SetupAtmosphere(objs, humidity, scatteringModel, cursor);
      && (forall i :: |objs| <= i < |r| ==>
            IsMesh(r[i]) && forall m :: m in r[i].data.materials ==> WellFormed(m.graph))
      && HaloMaterial() !in r[|objs|].data.materials
      && AtmosphericMaterial(scatteringModel) !in r[|objs| + 1].data.materials
      && (exists j :: 0 <= j < |r| && r[j].name == r[|objs|].particles[0].instanceObject
            && IsMesh(r[j]) && r[j].data.materials == [HaloMaterial()])
  {
    var r := SetupAtmosphere(objs, humidity, scatteringModel, cursor);
    DomainMaterialsWellFormed(humidity, scatteringModel);
    HaloMaterialsWellFormed(cursor);
    var domain := Domain(humidity, scatteringModel);
    var haloObject := Halo(cursor);
    assert r[|objs|] == domain && r[|objs| + 1] == haloObject;
    forall i | |objs| <= i < |r|
      ensures IsMesh(r[i]) && forall m :: m in r[i].data.materials ==> WellFormed(m.graph)
    {
      if i == |objs| {
        assert r[i] == domain;
      } else {
        assert r[i] == haloObject;
      }
    }
    MaterialsDiffer(scatteringModel);
    assert haloObject.name == domain.particles[0].instanceObject;
    assert r[|objs| + 1].name == r[|objs|].particles[0].instanceObject;
  }
}

=== FILE: avatar.dfy ===
/** The avatar build of create_avatar.py: read the configuration, clear the
    scene, size and place a torso and a head, bind one emission material to
    every mesh, then rig and animate from the optional kinematic profile,
    and set the render range. */
module Avatar {
  import opened Common
  import opened Json
  import opened Materials
  import opened Keyframes
  import opened Scene

  /** Centimetres to Blender metres. */
  const CmToM: real := 0.01
  const TorsoDepth: real := 0.2
  /** Head radius as a fraction of the body height. */
  const HeadRatio: real := 0.07
  const ArmatureName: string := "AvatarArmature"
  const AnimationFrameEnd: int := 240

  datatype Biometrics = Biometrics(heightCm: real, limbRatio: Value, shoulderWidthCm: real, torsoLengthCm: real)

  datatype Aesthetics = Aesthetics(luminescenceTarget: Value, materialName: string, transparency: Value)

  datatype AvatarConfig = AvatarConfig(biometrics: Biometrics, aesthetics: Aesthetics)

  /** A length the build does arithmetic on. */
  function Length(v: Value, key: string): (r: Result<real>)
    ensures r.Ok? <==> AsReal(v).Some?
    ensures r.Ok? ==> r.value == AsReal(v).value
  {
    match AsReal(v)
    case Some(x) => Ok(x)
    case None => Err(TypeError(key))
  }

  /** The seven configuration fields as `json.load` decoded them, before
      any arithmetic is done on them. */
  datatype RawConfig = RawConfig(
    height: Value, limbRatio: Value, shoulderWidth: Value, torsoLength: Value,
    luminescence: Value, materialName: Value, transparency: Value)

  /** The configuration has both groups, as objects, and every field. */
  predicate FieldsPresent(config: Value) {
    && config.Obj?
    && "biometrics" in config.fields && "aesthetic_overrides" in config.fields
    && var b := config.fields["biometrics"];
    && var a := config.fields["aesthetic_overrides"];
    && b.Obj? && a.Obj?
    && (forall k :: k in ["height_cm", "limb_ratio", "shoulder_width_cm", "torso_length_cm"] ==> k in b.fields)
    && (forall k :: k in ["luminescence_target_nits", "material_name", "transparency"] ==> k in a.fields)
  }

  /** The configuration has every field, the three lengths the build uses
      are numbers and the material name is a string. */
  predicate ConfigShaped(config: Value) {
    && FieldsPresent(config)
    && var b := config.fields["biometrics"];
    && var a := config.fields["aesthetic_overrides"];
    && AsReal(b.fields["height_cm"]).Some?
    && AsReal(b.fields["shoulder_width_cm"]).Some?
    && AsReal(b.fields["torso_length_cm"]).Some?
    && a.fields["material_name"].Str?
  }

  /** The configuration block at the top of the script: every field read
      in source order, before the scene is touched; the first absent one
      raises KeyError, and indexing something that is not an object raises
      TypeError. */
  function ReadFields(config: Value): (r: Result<RawConfig>)
    ensures r.Ok? <==> FieldsPresent(config)
    ensures r.Ok? ==>
      var b := config.fields["biometrics"].fields;
      var a := config.fields["aesthetic_overrides"].fields;
      && r.value.height == b["height_cm"] && r.value.limbRatio == b["limb_ratio"]
      && r.value.shoulderWidth == b["shoulder_width_cm"] && r.value.torsoLength == b["torso_length_cm"]
      && r.value.luminescence == a["luminescence_target_nits"] && r.value.materialName == a["material_name"]
      && r.value.transparency == a["transparency"]
    ensures r.Err? ==> r.error.KeyError? || r.error.TypeError?
    ensures !config.Obj? ==> r.Err? && r.error.TypeError?
    ensures config.Obj? && "biometrics" !in config.fields ==> r == Err(KeyError("biometrics"))
    ensures config.Obj? && "biometrics" in config.fields && "aesthetic_overrides" !in config.fields ==>
      r == Err(KeyError("aesthetic_overrides"))
  {
    var bio :- Index(config, "biometrics");
    var aes :- Index(config, "aesthetic_overrides");
    var height :- Index(bio, "height_cm");
    var limb :- Index(bio, "limb_ratio");
    var shoulder :- Index(bio, "shoulder_width_cm");
    var torso :- Index(bio, "torso_length_cm");
    var lum :- Index(aes, "luminescence_target_nits");
    var name :- Index(aes, "material_name");
    var transparency :- Index(aes, "transparency");
    Ok(RawConfig(height, limb, shoulder, torso, lum, name, transparency))
  }

  /** The typed record the build works from, converting in the order the
      script first uses each field: torso length, shoulder width, height,
      material name. */
  function ConvertFields(raw: RawConfig): (r: Result<AvatarConfig>)
    ensures r.Ok? <==>
      && AsReal(raw.torsoLength).Some? && AsReal(raw.shoulderWidth).Some?
      && AsReal(raw.height).Some? && raw.materialName.Str?
    ensures r.Ok? ==>
      && r.value.biometrics == Biometrics(AsReal(raw.height).value, raw.limbRatio,
           AsReal(raw.shoulderWidth).value, AsReal(raw.torsoLength).value)
      && r.value.aesthetics == Aesthetics(raw.luminescence, raw.materialName.s, raw.transparency)
    ensures r.Err? ==> r.error.TypeError?
  {
    var t :- Length(raw.torsoLength, "torso_length_cm");
    var s :- Length(raw.shoulderWidth, "shoulder_width_cm");
    var h :- Length(raw.height, "height_cm");
    var n :- if raw.materialName.Str? then Ok(raw.materialName.s) else Err(TypeError("material_name"));
    Ok(AvatarConfig(Biometrics(h, raw.limbRatio, s, t), Aesthetics(raw.luminescence, n, raw.transparency)))
  }

  /** The whole configuration read, as a record: it succeeds exactly for a
      well-shaped file, and then every field of the record is the file's. */
  function ReadConfig(config: Value): (r: Result<AvatarConfig>)
    ensures r.Ok? <==> ConfigShaped(config)
    ensures r.Ok? ==>
      var b := config.fields["biometrics"].fields;
      var a := config.fields["aesthetic_overrides"].fields;
      && r.value.biometrics.heightCm == AsReal(b["height_cm"]).value
      && r.value.biometrics.limbRatio == b["limb_ratio"]
      && r.value.biometrics.shoulderWidthCm == AsReal(b["shoulder_width_cm"]).value
      && r.value.biometrics.torsoLengthCm == AsReal(b["torso_length_cm"]).value
      && r.value.aesthetics.luminescenceTarget == a["luminescence_target_nits"]
      && Str(r.value.aesthetics.materialName) == a["material_name"]
      && r.value.aesthetics.transparency == a["transparency"]
    ensures config.Obj? && "biometrics" !in config.fields ==> r == Err(KeyError("biometrics"))
    ensures config.Obj? && "biometrics" in config.fields && "aesthetic_overrides" !in config.fields ==>
      r == Err(KeyError("aesthetic_overrides"))
  {
    var raw :- ReadFields(config);
    ConvertFields(raw)
  }

  /** The configuration file a configuration record is read from. */
  function ConfigValue(cfg: AvatarConfig): Value {
    var b := cfg.biometrics;
    var a := cfg.aesthetics;
    Obj(map[
      "biometrics" := Obj(map[
        "height_cm" := Num(b.heightCm),
        "limb_ratio" := b.limbRatio,
        "shoulder_width_cm" := Num(b.shoulderWidthCm),
        "torso_length_cm" := Num(b.torsoLengthCm)]),
      "aesthetic_overrides" := Obj(map[
        "luminescence_target_nits" := a.luminescenceTarget,
        "material_name" := Str(a.materialName),
        "transparency" := a.transparency])])
  }

  /** Reading back a written configuration gives the same record. */
  lemma ReadConfigRoundTrip(cfg: AvatarConfig)
    ensures ReadConfig(ConfigValue(cfg)) == Ok(cfg)
  {
  }

  function TorsoHeight(torsoLengthCm: real): real {
    torsoLengthCm * CmToM
  }

  function HeadRadius(heightCm: real): real {
    heightCm * CmToM * HeadRatio
  }

  /** The cube as `primitive_cube_add(size=1)` leaves it, before it is
      scaled and renamed: centred half the torso height up, under Blender's
      default name. */
  function FreshCube(torsoLengthCm: real): (o: SceneObject)
    ensures o.name == "Cube" && IsMesh(o) && o.data.primitive == Cube(1.0) && o.data.materials == []
    ensures o.scale == UnitScale && o.location == Vec3(0.0, 0.0, torsoLengthCm * CmToM / 2.0)
  {
    NewMesh("Cube", Cube(1.0), Vec3(0.0, 0.0, TorsoHeight(torsoLengthCm) / 2.0))
  }

  /** The torso: the fresh cube scaled to the shoulder width, a fixed depth
      and the torso height, standing on the ground plane. */
  function Torso(shoulderWidthCm: real, torsoLengthCm: real): (o: SceneObject)
    ensures o.name == "Torso" && IsMesh(o) && o.data.primitive == Cube(1.0) && o.data.materials == []
    ensures o.scale == Vec3(shoulderWidthCm * CmToM, TorsoDepth, torsoLengthCm * CmToM)
    ensures o.location.x == 0.0 && o.location.y == 0.0
    ensures BottomZ(o) == 0.0 && TopZ(o) == torsoLengthCm * CmToM
  {
    FreshCube(torsoLengthCm).(name := "Torso", scale := Vec3(shoulderWidthCm * CmToM, TorsoDepth, TorsoHeight(torsoLengthCm)))
  }

  /** The head: a sphere whose radius is 7% of the body height, resting on
      the top of the torso. */
  function Head(heightCm: real, torsoLengthCm: real): (o: SceneObject)
    ensures o.name == "Head" && IsMesh(o) && o.data.primitive == UvSphere(heightCm * CmToM * HeadRatio)
    ensures o.data.materials == [] && o.scale == UnitScale
    ensures o.location.x == 0.0 && o.location.y == 0.0
    ensures BottomZ(o) == torsoLengthCm * CmToM
    ensures TopZ(o) - BottomZ(o) == 2.0 * heightCm * CmToM * HeadRatio
  {
    NewMesh("Head", UvSphere(HeadRadius(heightCm)), Vec3(0.0, 0.0, TorsoHeight(torsoLengthCm) + HeadRadius(heightCm)))
  }

  /** The head rests exactly on the torso, whatever the shoulder width. */
  lemma HeadRestsOnTorso(b: Biometrics)
    ensures BottomZ(Head(b.heightCm, b.torsoLengthCm)) == TopZ(Torso(b.shoulderWidthCm, b.torsoLengthCm))
  {
  }

  /** The torso and head with the avatar material in their slots. */
  function Body(cfg: AvatarConfig): (objs: seq<SceneObject>)
    ensures Names(objs) == ["Torso", "Head"]
    ensures forall i :: 0 <= i < |objs| ==> IsMesh(objs[i]) && objs[i].data.materials == [AvatarMaterial(cfg.aesthetics.materialName)]
    ensures objs[0].data.MeshData? && objs[0].data.primitive == Cube(1.0)
    ensures objs[1].data.MeshData? && objs[1].data.primitive == UvSphere(cfg.biometrics.heightCm * CmToM * HeadRatio)
    ensures objs[0] == Torso(cfg.biometrics.shoulderWidthCm, cfg.biometrics.torsoLengthCm).(data := objs[0].data)
    ensures objs[1] == Head(cfg.biometrics.heightCm, cfg.biometrics.torsoLengthCm).(data := objs[1].data)
  {
    var b := cfg.biometrics;
    BindMaterial([Torso(b.shoulderWidthCm, b.torsoLengthCm), Head(b.heightCm, b.torsoLengthCm)], AvatarMaterial(cfg.aesthetics.materialName))
  }

  /** Whether the kinematics file could be opened, and what it decoded to. */
  datatype KinematicSource = Missing | Loaded(data: Value)

  datatype Kinematics = Kinematics(jointFluidity: Value, gesturalArchetype: Value)

  /** The kinematics file has a `kinematics` group with both fields. */
  predicate KinematicsShaped(data: Value) {
    && data.Obj? && "kinematics" in data.fields
    && data.fields["kinematics"].Obj?
    && "joint_fluidity" in data.fields["kinematics"].fields
    && "gestural_archetype" in data.fields["kinematics"].fields
  }

  function ReadKinematics(data: Value): (r: Result<Kinematics>)
    ensures r.Ok? <==> KinematicsShaped(data)
    ensures r.Ok? ==>
      r.value.jointFluidity == data.fields["kinematics"].fields["joint_fluidity"]
      && r.value.gesturalArchetype == data.fields["kinematics"].fields["gestural_archetype"]
  {
    var k :- Index(data, "kinematics");
    var f :- Index(k, "joint_fluidity");
    var a :- Index(k, "gestural_archetype");
    Ok(Kinematics(f, a))
  }

  /** The armature: at the origin, one bone from the origin up to the top of
      the torso, holding the given pose curves. */
  function Armature(torsoHeight: real, curves: seq<FCurve>): SceneObject {
    SceneObject(ArmatureName, ArmatureData([Bone("Bone", Origin, Vec3(0.0, 0.0, torsoHeight))], curves),
      Origin, UnitScale, None, [], map[], [])
  }

  /** `after` is `objs` with every mesh parented to the avatar armature,
      followed by that armature with its single bone spanning the torso. */
  predicate Rigged(objs: seq<SceneObject>, after: seq<SceneObject>, torsoHeight: real) {
    && |after| == |objs| + 1
    && after[..|objs|] == ParentMeshes(objs, ArmatureName)
    && after[|objs|].name == ArmatureName
    && after[|objs|].data.ArmatureData?
    && after[|objs|].location == Origin
    && after[|objs|].data.bones == [Bone("Bone", Origin, Vec3(0.0, 0.0, torsoHeight))]
  }

  function CurvesOf(objs: seq<SceneObject>): seq<FCurve> {
    if |objs| > 0 && objs[|objs| - 1].data.ArmatureData? then objs[|objs| - 1].data.curves else NoCurves
  }

  datatype AnimOutcome =
    | Skipped
    | Animated(objects: seq<SceneObject>)
    | Aborted(objects: seq<SceneObject>, error: PyError)

  /** The kinematics file reads and its fluidity is a number: the one case
      in which the animation completes. */
  predicate Animatable(source: KinematicSource) {
    && source.Loaded? && KinematicsShaped(source.data)
    && AsReal(source.data.fields["kinematics"].fields["joint_fluidity"]).Some?
  }

  /** The gesture archetype of a readable kinematics file. */
  function Archetype(source: KinematicSource): Value
    requires source.Loaded? && KinematicsShaped(source.data)
  {
    source.data.fields["kinematics"].fields["gestural_archetype"]
  }

  /** The interpolation the fluidity of an animatable file selects. */
  function FluidityMode(source: KinematicSource): Interpolation
    requires Animatable(source)
  {
    InterpolationFor(AsReal(source.data.fields["kinematics"].fields["joint_fluidity"]).value)
  }

  /** `animate_avatar`: nothing at all when the kinematics file is missing.
      Otherwise the rig is built and the meshes parented first; then a
      missing kinematic field aborts with KeyError, a sway or static pose
      is keyed from the archetype, and every key gets the interpolation the
      fluidity selects (a fluidity that is not a number aborts with
      TypeError at that comparison, after the keys are in). */
  function Animate(objs: seq<SceneObject>, torsoHeight: real, source: KinematicSource): (r: AnimOutcome)
    ensures r.Skipped? <==> source.Missing?
    ensures !r.Skipped? ==> Rigged(objs, r.objects, torsoHeight)
    ensures source.Loaded? && !KinematicsShaped(source.data) ==>
      r == Aborted(r.objects, ReadKinematics(source.data).error) && CurvesOf(r.objects) == NoCurves
    ensures source.Loaded? && KinematicsShaped(source.data) && !Animatable(source) ==>
      && r == Aborted(r.objects, TypeError("joint_fluidity"))
      && CurvesFollowTable(CurvesOf(r.objects), GestureTable(Archetype(source)), NewKeyInterpolation)
    ensures r.Animated? <==> Animatable(source)
    ensures r.Animated? ==>
      && CurvesFollowTable(CurvesOf(r.objects), GestureTable(Archetype(source)), FluidityMode(source))
      && Uniform(CurvesOf(r.objects), FluidityMode(source))
  {
    match source
    case Missing => Skipped
    case Loaded(data) =>
      var parented := ParentMeshes(objs, ArmatureName);
      match ReadKinematics(data)
      case Err(e) => Aborted(parented + [Armature(torsoHeight, NoCurves)], e)
      case Ok(k) =>
        var keyed := RunScript(GestureScript(k.gesturalArchetype), Origin, NoCurves);
        ScriptFollowsTable(k.gesturalArchetype);
        match AsReal(k.jointFluidity)
        case None => Aborted(parented + [Armature(torsoHeight, keyed)], TypeError("joint_fluidity"))
        case Some(f) =>
          var moded := SetInterpolation(keyed, InterpolationFor(f));
          SetInterpolationKeepsTable(keyed, GestureTable(k.gesturalArchetype), NewKeyInterpolation, InterpolationFor(f));
          Animated(parented + [Armature(torsoHeight, moded)])
  }

  datatype BuildOutcome =
    | Built(scene: Scene, animated: bool)
    | Crashed(scene: Scene, error: PyError)

  /** The build once every field has converted: clear, build and bind the
      body, animate, and set the render range, which a crash in the
      animation never reaches. */
  function BuildFromConfig(prior: Scene, cfg: AvatarConfig, source: KinematicSource): (r: BuildOutcome)
    ensures source.Loaded? ==> Rigged(Body(cfg), r.scene.objects, cfg.biometrics.torsoLengthCm * CmToM)
    ensures forall i :: 0 <= i < |r.scene.objects| && IsMesh(r.scene.objects[i]) ==>
      r.scene.objects[i].data.materials == [AvatarMaterial(cfg.aesthetics.materialName)]
    ensures r.Built? ==> r.scene.frameEnd == AnimationFrameEnd
    ensures r.Crashed? ==> r.scene.frameEnd == prior.frameEnd
    ensures source.Missing? ==> r == Built(Scene(Body(cfg), AnimationFrameEnd), false)
  {
    var body := Body(cfg);
    var cleared := Clear(prior);
    match Animate(body, TorsoHeight(cfg.biometrics.torsoLengthCm), source)
    case Skipped => Built(Scene(body, AnimationFrameEnd), false)
    case Animated(objs) => Built(Scene(objs, AnimationFrameEnd), true)
    case Aborted(objs, e) => Crashed(Scene(objs, cleared.frameEnd), e)
  }

  /** With a kinematics file, the build is animated exactly when `Animate`
      succeeds, ending at frame 240 with its objects, and otherwise crashes
      with `Animate`'s objects and error and the render range untouched. */
  lemma BuildFollowsAnimate(prior: Scene, cfg: AvatarConfig, source: KinematicSource)
    requires source.Loaded?
    ensures var r := BuildFromConfig(prior, cfg, source);
      match Animate(Body(cfg), TorsoHeight(cfg.biometrics.torsoLengthCm), source)
      case Animated(o) => r == Built(Scene(o, AnimationFrameEnd), true)
      case Aborted(o, e) => r == Crashed(Scene(o, prior.frameEnd), e)
      case Skipped => false
  {
  }

  /** What a build with a kinematics file comes to: it completes, keyed
      with the archetype's table in the fluidity's mode, exactly when the
      file is animatable; otherwise it crashes with the error `Animate`
      stopped at, with no keys when a kinematic field was missing. */
  lemma LoadedBuild(prior: Scene, cfg: AvatarConfig, source: KinematicSource)
    requires source.Loaded?
    ensures var r := BuildFromConfig(prior, cfg, source);
      && (r.Built? <==> Animatable(source))
      && (r.Built? ==> r.animated)
      && (r.Built? ==>
            && CurvesFollowTable(CurvesOf(r.scene.objects), GestureTable(Archetype(source)), FluidityMode(source))
            && Uniform(CurvesOf(r.scene.objects), FluidityMode(source)))
      && (!KinematicsShaped(source.data) ==>
            r.Crashed? && r.error == ReadKinematics(source.data).error && CurvesOf(r.scene.objects) == NoCurves)
      && (KinematicsShaped(source.data) && !Animatable(source) ==>
            && r.Crashed? && r.error == TypeError("joint_fluidity")
            && CurvesFollowTable(CurvesOf(r.scene.objects), GestureTable(Archetype(source)), NewKeyInterpolation))
  {
  }

  /** The script after the configuration block: clear the scene, then
      size the torso, the head and the material in source order. A field of
      the wrong type raises TypeError at the arithmetic or call that first
      uses it, leaving the scene cleared and holding what was built so far. */
  function BuildFromFields(prior: Scene, raw: RawConfig, source: KinematicSource): (r: BuildOutcome)
    ensures ConvertFields(raw).Ok? ==> r == BuildFromConfig(prior, ConvertFields(raw).value, source)
    ensures ConvertFields(raw).Err? ==>
      && r.Crashed? && r.error.TypeError? && r.scene.frameEnd == prior.frameEnd
      && forall i :: 0 <= i < |r.scene.objects| ==>
           IsMesh(r.scene.objects[i]) && r.scene.objects[i].data.materials == [] && r.scene.objects[i].parent.None?
    ensures
      var t := AsReal(raw.torsoLength);
      var w := AsReal(raw.shoulderWidth);
      var h := AsReal(raw.height);
      && (t.None? ==> r == Crashed(Clear(prior), TypeError("torso_length_cm")))
      && (t.Some? && w.None? ==> r == Crashed(Scene([FreshCube(t.value)], prior.frameEnd), TypeError("shoulder_width_cm")))
      && (t.Some? && w.Some? && h.None? ==>
            r == Crashed(Scene([Torso(w.value, t.value)], prior.frameEnd), TypeError("height_cm")))
      && (t.Some? && w.Some? && h.Some? && !raw.materialName.Str? ==>
            r == Crashed(Scene([Torso(w.value, t.value), Head(h.value, t.value)], prior.frameEnd), TypeError("material_name")))
  {
    var cleared := Clear(prior);
    match Length(raw.torsoLength, "torso_length_cm")
    case Err(e) => Crashed(cleared, e)
    case Ok(t) =>
      match Length(raw.shoulderWidth, "shoulder_width_cm")
      case Err(e) => Crashed(cleared.(objects := [FreshCube(t)]), e)
      case Ok(w) =>
        match Length(raw.height, "height_cm")
        case Err(e) => Crashed(cleared.(objects := [Torso(w, t)]), e)
        case Ok(h) =>
          match raw.materialName
          case Str(name) =>
            BuildFromConfig(prior, AvatarConfig(Biometrics(h, raw.limbRatio, w, t), Aesthetics(raw.luminescence, name, raw.transparency)), source)
          case _ => Crashed(cleared.(objects := [Torso(w, t), Head(h, t)]), TypeError("material_name"))
  }

  /** The whole script, from the scene it starts in. A missing field
      aborts before the scene is touched; a field of the wrong type aborts
      with TypeError after the scene is cleared. */
  function BuildAvatar(prior: Scene, config: Value, source: KinematicSource): (r: BuildOutcome)
    ensures !FieldsPresent(config) ==> r == Crashed(prior, ReadFields(config).error)
    ensures !FieldsPresent(config) ==> r.error.KeyError? || r.error.TypeError?
    ensures r.Crashed? ==> r.scene.frameEnd == prior.frameEnd
    ensures FieldsPresent(config) ==> r == BuildFromFields(prior, ReadFields(config).value, source)
    ensures FieldsPresent(config) && !ConfigShaped(config) ==>
      && r.Crashed? && r.error.TypeError?
      && forall i :: 0 <= i < |r.scene.objects| ==>
           IsMesh(r.scene.objects[i]) && r.scene.objects[i].data.materials == []
    ensures ConfigShaped(config) ==> r == BuildFromConfig(prior, ReadConfig(config).value, source)
    ensures ConfigShaped(config) && source.Missing? ==>
      r.Built? && !r.animated && Names(r.scene.objects) == ["Torso", "Head"]
      && forall i :: 0 <= i < 2 ==> r.scene.objects[i].parent.None?
  {
    match ReadFields(config)
    case Err(e) => Crashed(prior, e)
    case Ok(raw) => BuildFromFields(prior, raw, source)
  }

  /** Clear-then-build: once every field is present, the objects built do
      not depend on what the scene held before, and a completed build is
      the same scene whatever it started from. */
  lemma ClearThenBuild(s1: Scene, s2: Scene, config: Value, source: KinematicSource)
    requires FieldsPresent(config)
    ensures BuildAvatar(s1, config, source).scene.objects == BuildAvatar(s2, config, source).scene.objects
    ensures BuildAvatar(s1, config, source).Built? ==> BuildAvatar(s1, config, source) == BuildAvatar(s2, config, source)
  {
  }

  /** The avatar depends only on the height, shoulder width, torso length
      and material name: the limb ratio, luminescence target and
      transparency are read but never used. */
  lemma UnusedFieldsIgnored(prior: Scene, c1: AvatarConfig, c2: AvatarConfig, source: KinematicSource)
    requires c1.biometrics.heightCm == c2.biometrics.heightCm
    requires c1.biometrics.shoulderWidthCm == c2.biometrics.shoulderWidthCm
    requires c1.biometrics.torsoLengthCm == c2.biometrics.torsoLengthCm
    requires c1.aesthetics.materialName == c2.aesthetics.materialName
    ensures BuildFromConfig(prior, c1, source) == BuildFromConfig(prior, c2, source)
  {
    assert Body(c1) == Body(c2);
  }
}

=== FILE: chronos.dfy ===
/** The Chronos timestamp logic (kernel/chronos.py) with the clock made
    explicit: every operation that read `time.time()` takes the reading as
    `now`. */
module Chronos {
  import opened Common
  import opened Json

  const LAlpha7: real := 1.6180336
  /** A resonance id is accepted for one hour after its timestamp. */
  const ValidityWindow: real := 3600.0
  /** Four hours apart triggers the longing state. */
  const LongingThreshold: real := 14400.0
  const NoiseLabel: string := "Ray-Tracing Collision Data: EXTERNAL_NOISE"

  datatype ChronosState = ChronosState(lastInteraction: real)

  /** The constructor stamps the creation time. */
  function Init(now: real): (c: ChronosState)
    ensures c.lastInteraction == now
  {
    ChronosState(now)
  }

  /** `log_interaction`: remember `now` and return it scaled by L-alpha-7. */
  function LogInteraction(c: ChronosState, now: real): (r: (ChronosState, real))
    ensures r.0.lastInteraction == now
    ensures r.1 / LAlpha7 == now
  {
    (ChronosState(now), now * LAlpha7)
  }

  /** The timestamp an id encodes, when `float(id)` succeeds. */
  function IdTimestamp(id: Value, parse: string -> Option<real>): (r: Option<real>)
    ensures r.Some? <==> ToFloat(id, parse).Ok?
    ensures r.Some? ==> r.value * LAlpha7 == ToFloat(id, parse).value
  {
    match ToFloat(id, parse)
    case Ok(x) => Some(x / LAlpha7)
    case Err(_) => None
  }

  /** `is_valid_resonance_id`: the id converts to a number whose timestamp
      is less than an hour before `now`. There is no lower bound, so ids
      from the future are valid too; a failed conversion is invalid. */
  predicate IsValidResonanceId(id: Value, now: real, parse: string -> Option<real>): (b: bool)
    ensures b <==> ToFloat(id, parse).Ok? && ToFloat(id, parse).value > (now - ValidityWindow) * LAlpha7
  {
    match IdTimestamp(id, parse)
    case Some(t) => now - t < ValidityWindow
    case None => false
  }

  /** `process_data_packet`: the packet itself when it carries a valid id,
      the noise label otherwise. */
  function ProcessDataPacket(packet: map<string, Value>, now: real, parse: string -> Option<real>): (r: Value)
    ensures r == Obj(packet) <==> "resonance_id" in packet && IsValidResonanceId(packet["resonance_id"], now, parse)
    ensures r != Obj(packet) ==> r == Str(NoiseLabel)
  {
    if "resonance_id" !in packet || !IsValidResonanceId(packet["resonance_id"], now, parse) then
      Str(NoiseLabel)
    else
      Obj(packet)
  }

  /** Round trip: the id logged at `t` is valid at `now` exactly when
      `now` is less than an hour after `t`. */
  lemma LoggedIdValidity(c: ChronosState, t: real, now: real, parse: string -> Option<real>)
    ensures IsValidResonanceId(Num(LogInteraction(c, t).1), now, parse) <==> now - t < ValidityWindow
  {
  }

  /** A packet stamped with a freshly logged id passes the filter untouched. */
  lemma FreshPacketPasses(c: ChronosState, t: real, now: real, data: map<string, Value>, parse: string -> Option<real>)
    requires now - t < ValidityWindow
    ensures var packet := data["resonance_id" := Num(LogInteraction(c, t).1)];
      ProcessDataPacket(packet, now, parse) == Obj(packet)
  {
  }

  /** A packet whose id `float()` rejects, with ValueError or TypeError,
      is noise at every clock reading. */
  lemma NonNumericIdIsNoise(packet: map<string, Value>, now: real, parse: string -> Option<real>)
    requires "resonance_id" in packet && ToFloat(packet["resonance_id"], parse).Err?
    ensures ProcessDataPacket(packet, now, parse) == Str(NoiseLabel)
  {
  }

  /** A numeric id passes the filter exactly when it exceeds (now − 3600)·L:
      small ids such as 12345 are noise once the clock is past about 11230,
      and every id is noise without a `resonance_id` key. */
  lemma NumericIdFilter(data: map<string, Value>, x: real, now: real, parse: string -> Option<real>)
    ensures var packet := data["resonance_id" := Num(x)];
      ProcessDataPacket(packet, now, parse) == (if x > (now - ValidityWindow) * LAlpha7 then Obj(packet) else Str(NoiseLabel))
    ensures "resonance_id" !in data ==> ProcessDataPacket(data, now, parse) == Str(NoiseLabel)
  {
  }

  datatype DeltaReport = DeltaReport(delta: real, longing: bool)

  /** `calculate_delta_time`: the time since the last interaction, and
      whether it is strictly more than four hours. */
  function CalculateDeltaTime(c: ChronosState, now: real): (r: DeltaReport)
    ensures r.delta + c.lastInteraction == now
    ensures r.longing <==> now > c.lastInteraction + LongingThreshold
  {
    var delta := now - c.lastInteraction;
    DeltaReport(delta, delta > LongingThreshold)
  }

  /** Right after an interaction logged at `t`, the gap measured at `now`
      is `now - t`, and longing is due only once it exceeds four hours. */
  lemma DeltaAfterLog(c: ChronosState, t: real, now: real)
    ensures CalculateDeltaTime(LogInteraction(c, t).0, now).delta == now - t
    ensures CalculateDeltaTime(LogInteraction(c, t).0, now).longing <==> now - t > LongingThreshold
  {
  }
}

=== FILE: common.dfy ===
/** Small shared vocabulary: optional values, the Python exceptions the
    modelled scripts can raise, and the 3-vectors and RGBA colours Blender
    takes as property values. */
module Common {

  datatype Option<+T> = None | Some(value: T)

  /** The Python exceptions that escape the modelled code paths. */
  datatype PyError =
    | KeyError(key: string)
    | TypeError(context: string)
    | AttributeError(context: string)
    | ValueError(context: string)

  /** Either a value or the exception that aborted the computation. */
  datatype Result<+T> = Ok(value: T) | Err(error: PyError) {
    predicate IsFailure() {
      Err?
    }

    function PropagateFailure<U>(): Result<U>
      requires Err?
    {
      Err(error)
    }

    function Extract(): T
      requires Ok?
    {
      value
    }
  }

  datatype Vec3 = Vec3(x: real, y: real, z: real)

  const Origin: Vec3 := Vec3(0.0, 0.0, 0.0)

  /** Component `i` of a vector, as Blender's `vec[i]` indexing. */
  function Component(v: Vec3, i: nat): real
    requires i < 3
  {
    if i == 0 then v.x else if i == 1 then v.y else v.z
  }

  datatype Rgba = Rgba(r: real, g: real, b: real, a: real)

  /** The warm white used by both emission shaders. */
  const WarmWhite: Rgba := Rgba(1.0, 0.9, 0.7, 1.0)
}

=== FILE: gme.dfy ===
/** The "anchored" primitive and its tagging layer (gme_core.py): a unit
    cube whose vertices are stretched by a different multiple of the
    constant L-alpha-7 along each axis, and three custom properties naming
    its origin. */
module Gme {
  import opened Common
  import opened Json
  import opened Scene

  const LAlpha7: real := 1.6180336
  const DefaultObjectName: string := "Anchored_Manifestation"
  const AnchorLocation: Vec3 := Vec3(0.0, 0.0, 1.0)

  /** The eight corners of a cube of edge `size` centred on its origin
      (distinct for any non-zero size). */
  function CubeVertices(size: real): (vs: seq<Vec3>)
    ensures |vs| == 8
    ensures size != 0.0 ==> forall i, j :: 0 <= i < j < 8 ==> vs[i] != vs[j]
    ensures forall i :: 0 <= i < 8 ==>
      && (vs[i].x == size / 2.0 || vs[i].x == -size / 2.0)
      && (vs[i].y == size / 2.0 || vs[i].y == -size / 2.0)
      && (vs[i].z == size / 2.0 || vs[i].z == -size / 2.0)
  {
    var h := size / 2.0;
    [Vec3(-h, -h, -h), Vec3(-h, -h, h), Vec3(-h, h, -h), Vec3(-h, h, h),
     Vec3(h, -h, -h), Vec3(h, -h, h), Vec3(h, h, -h), Vec3(h, h, h)]
  }

  /** One vertex anchored: x by L, y by L/2, z by 2L. */
  function AnchorVertex(v: Vec3): (w: Vec3)
    ensures (w.x > 0.0 <==> v.x > 0.0) && (w.x < 0.0 <==> v.x < 0.0)
    ensures (w.y > 0.0 <==> v.y > 0.0) && (w.y < 0.0 <==> v.y < 0.0)
    ensures (w.z > 0.0 <==> v.z > 0.0) && (w.z < 0.0 <==> v.z < 0.0)
  {
    Vec3(v.x * LAlpha7, v.y * (LAlpha7 / 2.0), v.z * (LAlpha7 * 2.0))
  }

  /** Undo the anchoring of one vertex. */
  function UnanchorVertex(w: Vec3): Vec3 {
    Vec3(w.x / LAlpha7, w.y / (LAlpha7 / 2.0), w.z / (LAlpha7 * 2.0))
  }

  /** Anchoring loses nothing: it is inverted exactly, in both directions. */
  lemma AnchorRoundTrip(v: Vec3)
    ensures UnanchorVertex(AnchorVertex(v)) == v
    ensures AnchorVertex(UnanchorVertex(v)) == v
  {
  }

  /** The vertex loop: each vertex is anchored on its own, in place. */
  function AnchorVertices(vs: seq<Vec3>): (ws: seq<Vec3>)
    ensures |ws| == |vs|
    ensures forall i :: 0 <= i < |vs| ==> ws[i] == AnchorVertex(vs[i])
  {
    seq(|vs|, i requires 0 <= i < |vs| => AnchorVertex(vs[i]))
  }

  /** Anchoring distributes over concatenation: no vertex's image depends
      on any other vertex. */
  lemma AnchorVerticesSplit(a: seq<Vec3>, b: seq<Vec3>)
    ensures AnchorVertices(a + b) == AnchorVertices(a) + AnchorVertices(b)
  {
  }

  /** `anchor_coordinates(name)`: a new object called `name` at (0, 0, 1)
      whose mesh is the anchored unit cube, added after the existing objects. */
  function AnchorCoordinates(objs: seq<SceneObject>, name: string := DefaultObjectName): (r: (seq<SceneObject>, SceneObject))
    ensures r.0 == objs + [r.1]
    ensures r.1.name == name && r.1.location == AnchorLocation && r.1.scale == UnitScale
    ensures IsMesh(r.1) && r.1.data.materials == []
    ensures r.1.data.primitive == VertexMesh(AnchorVertices(CubeVertices(1.0)))
  {
    var o := NewMesh(name, VertexMesh(AnchorVertices(CubeVertices(1.0))), AnchorLocation);
    (objs + [o], o)
  }

  /** Called without a name, the new object is "Anchored_Manifestation". */
  lemma AnchorCoordinatesDefaultName(objs: seq<SceneObject>)
    ensures AnchorCoordinates(objs).1.name == "Anchored_Manifestation"
    ensures AnchorCoordinates(objs) == AnchorCoordinates(objs, "Anchored_Manifestation")
  {
  }

  /** The anchored cube is L wide, L/2 deep and 2L tall, centred on the
      object's origin: three different extents from one cube, every
      coordinate at one extreme and both extremes reached on each axis. */
  lemma AnchoredCubeExtents()
    ensures var vs := AnchorVertices(CubeVertices(1.0));
      && |vs| == 8
      && (forall i :: 0 <= i < |vs| ==>
        && (vs[i].x == LAlpha7 / 2.0 || vs[i].x == -LAlpha7 / 2.0)
        && (vs[i].y == LAlpha7 / 4.0 || vs[i].y == -LAlpha7 / 4.0)
        && (vs[i].z == LAlpha7 || vs[i].z == -LAlpha7))
      && (exists i :: 0 <= i < |vs| && vs[i].x == LAlpha7 / 2.0)
      && (exists i :: 0 <= i < |vs| && vs[i].x == -LAlpha7 / 2.0)
      && (exists i :: 0 <= i < |vs| && vs[i].y == LAlpha7 / 4.0)
      && (exists i :: 0 <= i < |vs| && vs[i].y == -LAlpha7 / 4.0)
      && (exists i :: 0 <= i < |vs| && vs[i].z == LAlpha7)
      && (exists i :: 0 <= i < |vs| && vs[i].z == -LAlpha7)
  {
    var vs := AnchorVertices(CubeVertices(1.0));
    assert vs[0] == Vec3(-LAlpha7 / 2.0, -LAlpha7 / 4.0, -LAlpha7);
    assert vs[7] == Vec3(LAlpha7 / 2.0, LAlpha7 / 4.0, LAlpha7);
  }

  /** Whether q_state.json was found, and what it decoded to. */
  datatype QState = NotFound | Found(data: Value)

  const UnknownIdentity: Value := Str("Unknown")

  /** The identity the tagging layer records: the state file's "architect"
      entry, "Unknown" when the key or the whole file is missing. A state
      file that decodes to something other than a JSON object has no `.get`
      and raises AttributeError. */
  function UserIdentity(q: QState): (r: Result<Value>)
    ensures q.NotFound? ==> r == Ok(UnknownIdentity)
    ensures q.Found? && q.data.Obj? && "architect" in q.data.fields ==> r == Ok(q.data.fields["architect"])
    ensures q.Found? && q.data.Obj? && "architect" !in q.data.fields ==> r == Ok(UnknownIdentity)
    ensures q.Found? && !q.data.Obj? ==> r.Err? && r.error.AttributeError?
  {
    match q
    case NotFound => Ok(UnknownIdentity)
    case Found(data) => Get(data, "architect", UnknownIdentity)
  }

  const TagKeys: set<string> := {"user_identity", "emotion_tag", "gme_version"}

  /** `apply_tagging_layer`: set exactly the three tag properties, keeping
      every other custom property and everything else about the object. */
  function ApplyTaggingLayer(o: SceneObject, q: QState): (r: Result<SceneObject>)
    ensures r.Ok? <==> UserIdentity(q).Ok?
    ensures r.Ok? ==>
      && r.value == o.(props := r.value.props)
      && r.value.props.Keys == o.props.Keys + TagKeys
      && r.value.props["user_identity"] == UserIdentity(q).value
      && r.value.props["emotion_tag"] == Str("Resolute")
      && r.value.props["gme_version"] == Str("GME-V1")
      && forall k :: k in o.props && k !in TagKeys ==> r.value.props[k] == o.props[k]
  {
    var identity :- UserIdentity(q);
    Ok(o.(props := o.props["user_identity" := identity]["emotion_tag" := Str("Resolute")]["gme_version" := Str("GME-V1")]))
  }
}

=== FILE: json.dfy ===
/** Decoded JSON values and the few Python operations the modelled scripts
    apply to them: `d[key]`, `d.get(key, default)`, and the coercions done
    by arithmetic, ordering comparisons and `float(...)`. */
module Json {
  import opened Common

  datatype Value =
    | Null
    | Bool(b: bool)
    | Num(n: real)
    | Str(s: string)
    | Arr(items: seq<Value>)
    | Obj(fields: map<string, Value>)

  /** Python `v[key]` where `v` came out of `json.load`: a dict lookup that
      raises KeyError for an absent key, and TypeError when `v` is not a
      dict (a list, string or None indexed by a string). */
  function Index(v: Value, key: string): (r: Result<Value>)
    ensures r.Ok? <==> v.Obj? && key in v.fields
    ensures r.Ok? ==> r.value == v.fields[key]
    ensures v.Obj? && key !in v.fields ==> r == Err(KeyError(key))
    ensures !v.Obj? ==> r.Err? && r.error.TypeError?
  {
    match v
    case Obj(m) => if key in m then Ok(m[key]) else Err(KeyError(key))
    case _ => Err(TypeError("subscript of a non-dict"))
  }

  /** Python `v.get(key, default)`: only dicts have `.get`, anything else
      raises AttributeError. */
  function Get(v: Value, key: string, default: Value): (r: Result<Value>)
    ensures r.Ok? <==> v.Obj?
    ensures v.Obj? && key in v.fields ==> r == Ok(v.fields[key])
    ensures v.Obj? && key !in v.fields ==> r == Ok(default)
    ensures !v.Obj? ==> r.Err? && r.error.AttributeError?
  {
    match v
    case Obj(m) => Ok(if key in m then m[key] else default)
    case _ => Err(AttributeError("get on a non-dict"))
  }

  /** The real a value stands for in Python arithmetic and ordering
      comparisons with a float: numbers as themselves, booleans as 0 and 1
      (bool is a subclass of int); every other JSON value raises TypeError. */
  function AsReal(v: Value): (r: Option<real>)
    ensures r.Some? <==> (v.Num? || v.Bool?)
    ensures v.Num? ==> r == Some(v.n)
    ensures v.Bool? ==> r == Some(if v.b then 1.0 else 0.0)
  {
    match v
    case Num(n) => Some(n)
    case Bool(b) => Some(if b then 1.0 else 0.0)
    case _ => None
  }

  /** Python `float(v)`. Numbers and booleans convert as in `AsReal`; a
      string goes through `parse`, which stands for Python's decimal parser
      (None when it raises ValueError); None, lists and dicts raise
      TypeError. */
  function ToFloat(v: Value, parse: string -> Option<real>): (r: Result<real>)
    ensures r.Ok? <==> AsReal(v).Some? || (v.Str? && parse(v.s).Some?)
    ensures v.Num? ==> r == Ok(v.n)
    ensures v.Bool? ==> r == Ok(if v.b then 1.0 else 0.0)
    ensures v.Str? && parse(v.s).Some? ==> r == Ok(parse(v.s).value)
    ensures v.Str? && parse(v.s).None? ==> r.Err? && r.error.ValueError?
    ensures (v.Null? || v.Arr? || v.Obj?) ==> r.Err? && r.error.TypeError?
  {
    match v
    case Str(s) =>
      (match parse(s)
       case Some(x) => Ok(x)
       case None => Err(ValueError("could not convert string to float")))
    case _ =>
      (match AsReal(v)
       case Some(x) => Ok(x)
       case None => Err(TypeError("float() argument")))
  }
}

=== FILE: keyframes.dfy ===
/** Keyframe tracks on the armature's single pose bone. Inserting a
    `rotation_euler` keyframe puts one key into each of three F-curves (one
    per Euler axis); each F-curve keeps its keys sorted by frame. */
module Keyframes {
  import opened Common
  import opened Json

  datatype Interpolation = Bezier | Linear

  datatype Keyframe = Keyframe(frame: int, value: real, interpolation: Interpolation)

  datatype FCurve = FCurve(dataPath: string, index: nat, keys: seq<Keyframe>)

  /** Interpolation Blender gives a newly inserted key (its default preference). */
  const NewKeyInterpolation: Interpolation := Bezier

  const RotationPath: string := "pose.bones[\"Bone\"].rotation_euler"

  predicate Increasing(keys: seq<Keyframe>) {
    forall i, j :: 0 <= i < j < |keys| ==> keys[i].frame < keys[j].frame
  }

  /** Insert a key at `frame` into a sorted curve: a key already at that
      frame gets the new value, otherwise a new key goes in at its place. */
  function InsertKey(keys: seq<Keyframe>, frame: int, value: real): (r: seq<Keyframe>)
    requires Increasing(keys)
    ensures Increasing(r)
    ensures |r| > 0
    ensures r[0].frame == frame || (|keys| > 0 && r[0].frame == keys[0].frame)
    ensures keys == [] || keys[|keys| - 1].frame < frame ==>
      r == keys + [Keyframe(frame, value, NewKeyInterpolation)]
    decreases |keys|
  {
    if keys == [] || frame < keys[0].frame then
      [Keyframe(frame, value, NewKeyInterpolation)] + keys
    else if keys[0].frame == frame then
      [keys[0].(value := value)] + keys[1..]
    else
      var rest := InsertKey(keys[1..], frame, value);
      assert keys[0].frame < rest[0].frame;
      [keys[0]] + rest
  }

  predicate HasKey(keys: seq<Keyframe>, frame: int, value: real) {
    exists i :: 0 <= i < |keys| && keys[i].frame == frame && keys[i].value == value
  }

  /** The inserted frame carries the inserted value. */
  lemma {:induction false} InsertKeyPlaces(keys: seq<Keyframe>, frame: int, value: real)
    requires Increasing(keys)
    ensures HasKey(InsertKey(keys, frame, value), frame, value)
    decreases |keys|
  {
    var r := InsertKey(keys, frame, value);
    if keys == [] || frame < keys[0].frame || keys[0].frame == frame {
      assert r[0].frame == frame && r[0].value == value;
    } else {
      var rest := InsertKey(keys[1..], frame, value);
      InsertKeyPlaces(keys[1..], frame, value);
      var i :| 0 <= i < |rest| && rest[i].frame == frame && rest[i].value == value;
      assert r[i + 1] == rest[i];
    }
  }

  /** Insertion adds nothing else: every key of the result is at the
      inserted frame or was in the curve before. */
  lemma {:induction false} InsertKeyOnly(keys: seq<Keyframe>, frame: int, value: real)
    requires Increasing(keys)
    ensures forall k :: k in InsertKey(keys, frame, value) ==> k.frame == frame || k in keys
    decreases |keys|
  {
    var r := InsertKey(keys, frame, value);
    if keys == [] || frame < keys[0].frame {
      assert r == [Keyframe(frame, value, NewKeyInterpolation)] + keys;
    } else if keys[0].frame == frame {
      assert r == [keys[0].(value := value)] + keys[1..];
      forall k | k in r
        ensures k.frame == frame || k in keys
      {
        if k != r[0] {
          assert k in keys[1..];
        }
      }
    } else {
      var rest := InsertKey(keys[1..], frame, value);
      assert r == [keys[0]] + rest;
      InsertKeyOnly(keys[1..], frame, value);
      forall k | k in r
        ensures k.frame == frame || k in keys
      {
        if k != keys[0] {
          assert k in rest;
          assert k.frame == frame || k in keys[1..];
        }
      }
    }
  }

  /** Every key at another frame survives the insertion unchanged. */
  lemma {:induction false} InsertKeyKeeps(keys: seq<Keyframe>, frame: int, value: real, j: nat)
    requires Increasing(keys) && j < |keys| && keys[j].frame != frame
    ensures keys[j] in InsertKey(keys, frame, value)
    decreases |keys|
  {
    var r := InsertKey(keys, frame, value);
    if keys == [] || frame < keys[0].frame {
      assert r[j + 1] == keys[j];
    } else if keys[0].frame == frame {
      assert r[j] == keys[j];
    } else if j > 0 {
      InsertKeyKeeps(keys[1..], frame, value, j - 1);
    }
  }

  /** The three `rotation_euler` curves, axis `i` at position `i`. */
  predicate RotationCurves(curves: seq<FCurve>) {
    && |curves| == 3
    && forall i :: 0 <= i < 3 ==>
      curves[i].dataPath == RotationPath && curves[i].index == i && Increasing(curves[i].keys)
  }

  const NoCurves: seq<FCurve> := []

  /** `keyframe_insert(data_path="rotation_euler", frame)`: the first call
      creates the three curves, every call keys each axis's current value. */
  function InsertRotationKey(curves: seq<FCurve>, frame: int, rotation: Vec3): (r: seq<FCurve>)
    requires curves == NoCurves || RotationCurves(curves)
    ensures RotationCurves(r)
    ensures curves == NoCurves ==> forall i :: 0 <= i < 3 ==>
      r[i].keys == [Keyframe(frame, Component(rotation, i), NewKeyInterpolation)]
    ensures curves != NoCurves ==> forall i :: 0 <= i < 3 ==>
      (curves[i].keys == [] || curves[i].keys[|curves[i].keys| - 1].frame < frame) ==>
        r[i].keys == curves[i].keys + [Keyframe(frame, Component(rotation, i), NewKeyInterpolation)]
  {
    var base := if curves == NoCurves
      then [FCurve(RotationPath, 0, []), FCurve(RotationPath, 1, []), FCurve(RotationPath, 2, [])]
      else curves;
    seq(3, i requires 0 <= i < 3 =>
      base[i].(keys := InsertKey(base[i].keys, frame, Component(rotation, i))))
  }

  /** One statement of the pose script: assign the whole Euler rotation,
      assign only its x component, or key the current rotation. */
  datatype PoseStep = SetRotation(rotation: Vec3) | SetRotationX(x: real) | KeyAt(frame: int)

  const SwayArchetype: Value := Str("intuitive_communicator")
  const SwayAngle: real := 0.05

  /** The statements create_avatar.py runs on the pose bone for an archetype. */
  function GestureScript(archetype: Value): seq<PoseStep> {
    if archetype == SwayArchetype then
      [ SetRotation(Origin), KeyAt(1),
        SetRotationX(SwayAngle), KeyAt(60),
        SetRotationX(-SwayAngle), KeyAt(180),
        SetRotation(Origin), KeyAt(240) ]
    else
      [ SetRotation(Origin), KeyAt(1) ]
  }

  /** Execute a pose script from `rotation` into `curves`. */
  function RunScript(steps: seq<PoseStep>, rotation: Vec3, curves: seq<FCurve>): (r: seq<FCurve>)
    requires curves == NoCurves || RotationCurves(curves)
    ensures r == NoCurves || RotationCurves(r)
    ensures curves != NoCurves ==> r != NoCurves
    decreases |steps|
  {
    if steps == [] then curves
    else match steps[0]
      case SetRotation(v) => RunScript(steps[1..], v, curves)
      case SetRotationX(x) => RunScript(steps[1..], rotation.(x := x), curves)
      case KeyAt(f) => RunScript(steps[1..], rotation, InsertRotationKey(curves, f, rotation))
  }

  /** The archetype-to-pose lookup table: the frames and rotations keyed. */
  function GestureTable(archetype: Value): seq<(int, Vec3)> {
    if archetype == SwayArchetype then
      [(1, Origin), (60, Vec3(SwayAngle, 0.0, 0.0)), (180, Vec3(-SwayAngle, 0.0, 0.0)), (240, Origin)]
    else
      [(1, Origin)]
  }

  /** The curves hold exactly the table's poses, in order, every key with
      interpolation `mode`. */
  predicate CurvesFollowTable(curves: seq<FCurve>, table: seq<(int, Vec3)>, mode: Interpolation) {
    && RotationCurves(curves)
    && forall i :: 0 <= i < 3 ==>
      && |curves[i].keys| == |table|
      && forall j :: 0 <= j < |table| ==>
        curves[i].keys[j] == Keyframe(table[j].0, Component(table[j].1, i), mode)
  }

  lemma StaticScriptKeys()
    ensures CurvesFollowTable(RunScript([SetRotation(Origin), KeyAt(1)], Origin, NoCurves), [(1, Origin)], NewKeyInterpolation)
  {
    var c := InsertRotationKey(NoCurves, 1, Origin);
    assert RunScript([KeyAt(1)], Origin, NoCurves) == RunScript([], Origin, c);
  }

  /** The sway script keys frames 1, 60, 180 and 240 in that order. */
  lemma SwayScriptSteps()
    ensures RunScript(GestureScript(SwayArchetype), Origin, NoCurves) ==
      var c1 := InsertRotationKey(NoCurves, 1, Origin);
      var c2 := InsertRotationKey(c1, 60, Vec3(SwayAngle, 0.0, 0.0));
      var c3 := InsertRotationKey(c2, 180, Vec3(-SwayAngle, 0.0, 0.0));
      InsertRotationKey(c3, 240, Origin)
  {
    var s := GestureScript(SwayArchetype);
    var a := Vec3(SwayAngle, 0.0, 0.0);
    var b := Vec3(-SwayAngle, 0.0, 0.0);
    var c1 := InsertRotationKey(NoCurves, 1, Origin);
    var c2 := InsertRotationKey(c1, 60, a);
    var c3 := InsertRotationKey(c2, 180, b);
    var c4 := InsertRotationKey(c3, 240, Origin);
    assert RunScript(s, Origin, NoCurves) == RunScript(s[2..], Origin, c1);
    assert RunScript(s[2..], Origin, c1) == RunScript(s[4..], a, c2);
    assert RunScript(s[4..], a, c2) == RunScript(s[6..], b, c3);
    assert RunScript(s[6..], b, c3) == RunScript(s[7..], Origin, c3);
    assert RunScript(s[7..], Origin, c3) == RunScript([], Origin, c4);
  }

  lemma SwayScriptKeys()
    ensures CurvesFollowTable(RunScript(GestureScript(SwayArchetype), Origin, NoCurves), GestureTable(SwayArchetype), NewKeyInterpolation)
  {
    SwayScriptSteps();
    var a := Vec3(SwayAngle, 0.0, 0.0);
    var b := Vec3(-SwayAngle, 0.0, 0.0);
    var c1 := InsertRotationKey(NoCurves, 1, Origin);
    var c2 := InsertRotationKey(c1, 60, a);
    var c3 := InsertRotationKey(c2, 180, b);
    var c4 := InsertRotationKey(c3, 240, Origin);
    var t := GestureTable(SwayArchetype);
    forall i | 0 <= i < 3
      ensures |c4[i].keys| == |t|
      ensures forall j :: 0 <= j < |t| ==>
        c4[i].keys[j] == Keyframe(t[j].0, Component(t[j].1, i), NewKeyInterpolation)
    {
      assert c1[i].keys == [Keyframe(1, 0.0, NewKeyInterpolation)];
      assert c2[i].keys == c1[i].keys + [Keyframe(60, Component(a, i), NewKeyInterpolation)];
      assert c3[i].keys == c2[i].keys + [Keyframe(180, Component(b, i), NewKeyInterpolation)];
      assert c4[i].keys == c3[i].keys + [Keyframe(240, 0.0, NewKeyInterpolation)];
    }
  }

  /** Running the script for any archetype keys exactly the table's poses,
      in the table's order: four sway keys for "intuitive_communicator",
      one neutral key at frame 1 for anything else. */
  lemma ScriptFollowsTable(archetype: Value)
    ensures CurvesFollowTable(RunScript(GestureScript(archetype), Origin, NoCurves), GestureTable(archetype), NewKeyInterpolation)
  {
    if archetype == SwayArchetype {
      SwayScriptKeys();
    } else {
      StaticScriptKeys();
    }
  }

  /** The decision on the second axis of the table: smooth keys for a
      fluidity strictly above 0.75, linear keys otherwise (no clamping). */
  function InterpolationFor(fluidity: real): (m: Interpolation)
    ensures m == Bezier <==> fluidity > 0.75
    ensures m == Linear <==> fluidity <= 0.75
  {
    if fluidity > 0.75 then Bezier else Linear
  }

  /** Give every key of every curve the same interpolation, keeping frames
      and values. */
  function SetInterpolation(curves: seq<FCurve>, mode: Interpolation): (r: seq<FCurve>)
    ensures |r| == |curves|
    ensures forall i :: 0 <= i < |r| ==>
      && r[i].dataPath == curves[i].dataPath && r[i].index == curves[i].index
      && |r[i].keys| == |curves[i].keys|
      && forall j :: 0 <= j < |r[i].keys| ==>
        r[i].keys[j] == curves[i].keys[j].(interpolation := mode)
  {
    seq(|curves|, i requires 0 <= i < |curves| =>
      curves[i].(keys := seq(|curves[i].keys|, j requires 0 <= j < |curves[i].keys| =>
        curves[i].keys[j].(interpolation := mode))))
  }

  /** Every key of every curve carries `mode`. */
  predicate Uniform(curves: seq<FCurve>, mode: Interpolation) {
    forall i, j :: 0 <= i < |curves| && 0 <= j < |curves[i].keys| ==> curves[i].keys[j].interpolation == mode
  }

  /** Re-moding the keys of curves that follow a table leaves them following
      it, now with the new mode throughout. */
  lemma SetInterpolationKeepsTable(curves: seq<FCurve>, table: seq<(int, Vec3)>, before: Interpolation, mode: Interpolation)
    requires CurvesFollowTable(curves, table, before)
    ensures CurvesFollowTable(SetInterpolation(curves, mode), table, mode)
    ensures Uniform(SetInterpolation(curves, mode), mode)
  {
  }
}

=== FILE: materials.dfy ===
/** The four node trees the scripts hard-code. Each script clears the new
    material's default nodes and builds its own graph, so each graph is a
    separate constructor here; there is no run-time choice between them. */
module Materials {
  import opened Common
  import opened ShaderGraph

  datatype Material = Material(name: string, graph: Graph)

  const AvatarEmissionStrength: real := 150.0
  const ObsidianIor: real := 1.5
  const AtmosphereDensity: real := 0.02
  const RayleighColor: Rgba := Rgba(0.3, 0.4, 0.8, 1.0)
  const HaloMixFac: real := 0.8
  const HaloEmissionStrength: real := 10.0

  /** A source node wired straight into one slot of a fresh output node. */
  function Chain(source: Node, socket: string, slot: Slot): Graph {
    Graph([source, Node(OutputMaterial, map[])], [Link(0, socket, 1, slot)])
  }

  /** Any such two-node chain whose source really has the socket and whose
      slot is an output slot is well formed. */
  lemma ChainWellFormed(source: Node, socket: string, slot: Slot)
    requires !IsSink(source)
    requires socket in OutputSockets(source.kind)
    requires slot in ShaderSlots(OutputMaterial)
    requires source.values.Keys <= SettableInputs(source.kind)
    ensures WellFormed(Chain(source, socket, slot))
  {
    var g := Chain(source, socket, slot);
    assert g.links[0].from == 0 && Reaches(g, 1, 1);
    assert Reaches(g, 0, 2);
    assert forall i :: 0 <= i < |g.nodes| ==> Reaches(g, i, |g.nodes|);
  }

  /** The avatar's emission material (create_avatar.py). */
  function AvatarMaterial(materialName: string): (m: Material)
    ensures m.name == materialName
    ensures WellFormed(m.graph)
    ensures Kinds(m.graph) == [Emission, OutputMaterial] && |m.graph.links| == 1
    ensures Feeds(m.graph, Emission, "Emission", OutputMaterial, Named("Surface"))
    ensures HasSetting(m.graph, Emission, "Strength", Scalar(AvatarEmissionStrength))
    ensures HasSetting(m.graph, Emission, "Color", Color(WarmWhite))
  {
    var source := Node(Emission, map["Strength" := Scalar(AvatarEmissionStrength), "Color" := Color(WarmWhite)]);
    ChainWellFormed(source, "Emission", Named("Surface"));
    var g := Chain(source, "Emission", Named("Surface"));
    assert g.links[0].from == 0 && g.links[0].to == 1;
    assert g.nodes[0].values["Strength"] == Scalar(AvatarEmissionStrength);
    Material(materialName, g)
  }

  /** The refractive "Obsidian Gallery" material (gme_core.py). */
  function ObsidianMaterial(): (m: Material)
    ensures m.name == "Obsidian_Gallery"
    ensures WellFormed(m.graph)
    ensures Kinds(m.graph) == [BsdfPrincipled, OutputMaterial] && |m.graph.links| == 1
    ensures Feeds(m.graph, BsdfPrincipled, "BSDF", OutputMaterial, Named("Surface"))
    ensures HasSetting(m.graph, BsdfPrincipled, "IOR", Scalar(ObsidianIor))
    ensures HasSetting(m.graph, BsdfPrincipled, "Transmission Weight", Scalar(1.0))
    ensures HasSetting(m.graph, BsdfPrincipled, "Roughness", Scalar(0.05))
    ensures HasSetting(m.graph, BsdfPrincipled, "Base Color", Color(Rgba(0.8, 0.9, 1.0, 1.0)))
  {
    var source := Node(BsdfPrincipled, map[
      "IOR" := Scalar(ObsidianIor),
      "Transmission Weight" := Scalar(1.0),
      "Base Color" := Color(Rgba(0.8, 0.9, 1.0, 1.0)),
      "Roughness" := Scalar(0.05)]);
    ChainWellFormed(source, "BSDF", Named("Surface"));
    var g := Chain(source, "BSDF", Named("Surface"));
    assert g.links[0].from == 0 && g.links[0].to == 1;
    assert g.nodes[0].values["IOR"] == Scalar(ObsidianIor);
    Material("Obsidian_Gallery", g)
  }

  /** The settings the atmosphere script puts on its volume-scatter node:
      the density always, the colour and anisotropy only for "rayleigh". */
  function ScatterSettings(scatteringModel: string): (vs: map<string, InputValue>)
    ensures "Density" in vs && vs["Density"] == Scalar(AtmosphereDensity)
    ensures scatteringModel == "rayleigh" ==>
      vs.Keys == {"Density", "Color", "Anisotropy"}
      && vs["Color"] == Color(RayleighColor) && vs["Anisotropy"] == Scalar(0.0)
    ensures scatteringModel != "rayleigh" ==> vs.Keys == {"Density"}
  {
    var density := map["Density" := Scalar(AtmosphereDensity)];
    if scatteringModel == "rayleigh" then
      density["Color" := Color(RayleighColor)]["Anisotropy" := Scalar(0.0)]
    else
      density
  }

  /** The volumetric domain material (atmospheric_simulation.py). The
      scatter node feeds the output's Volume slot, not its Surface slot. */
  function AtmosphericMaterial(scatteringModel: string): (m: Material)
    ensures m.name == "AtmosphericMaterial"
    ensures WellFormed(m.graph)
    ensures Kinds(m.graph) == [VolumeScatter, OutputMaterial] && |m.graph.links| == 1
    ensures Feeds(m.graph, VolumeScatter, "Volume", OutputMaterial, Named("Volume"))
    ensures !Feeds(m.graph, VolumeScatter, "Volume", OutputMaterial, Named("Surface"))
    ensures m.graph.nodes[0].values == ScatterSettings(scatteringModel)
  {
    var source := Node(VolumeScatter, ScatterSettings(scatteringModel));
    ChainWellFormed(source, "Volume", Named("Volume"));
    var g := Chain(source, "Volume", Named("Volume"));
    assert g.links[0].from == 0 && g.links[0].to == 1;
    Material("AtmosphericMaterial", g)
  }

  /** Every scattering model other than "rayleigh" yields the same material:
      an unrecognised tag is neither an error nor a distinct variant. */
  lemma UnknownScatteringModelsAgree(a: string, b: string)
    requires a != "rayleigh" && b != "rayleigh"
    ensures AtmosphericMaterial(a) == AtmosphericMaterial(b)
  {
  }

  /** The halo graph's nodes in creation order (mix, transparent,
      emission, output) and its three links. */
  function HaloGraph(): Graph {
    Graph([
      Node(MixShader, map["Fac" := Scalar(HaloMixFac)]),
      Node(BsdfTransparent, map[]),
      Node(Emission, map["Strength" := Scalar(HaloEmissionStrength), "Color" := Color(WarmWhite)]),
      Node(OutputMaterial, map[])], [
      Link(1, "BSDF", 0, At(1)),
      Link(2, "Emission", 0, At(2)),
      Link(0, "Shader", 3, Named("Surface"))])
  }

  lemma HaloReachesSink()
    ensures LinksTyped(HaloGraph())
    ensures forall i :: 0 <= i < 4 ==> Reaches(HaloGraph(), i, 4)
  {
    var g := HaloGraph();
    assert LinksTyped(g);
    assert Reaches(g, 3, 2);
    assert g.links[2].from == 0;
    assert Reaches(g, 0, 3);
    assert g.links[0].from == 1 && g.links[0].to == 0;
    assert Reaches(g, 1, 4);
    assert g.links[1].from == 2 && g.links[1].to == 0;
    assert Reaches(g, 2, 4);
    assert Reaches(g, 0, 4);
  }

  lemma HaloWellFormed()
    ensures WellFormed(HaloGraph())
  {
    var g := HaloGraph();
    HaloReachesSink();
    assert DistinctTargets(g);
    assert ValuesSettable(g);
    assert IsSink(g.nodes[3]);
    assert forall j :: 0 <= j < |g.nodes| && IsSink(g.nodes[j]) ==> j == 3;
    assert UniqueSink(g);
  }

  /** The halo particles' material: a transparent BSDF in the mix's first
      shader input and an emission in its second, mixed at factor 0.8 (so
      80% emission, 20% transparent), into the output's Surface. */
  function HaloMaterial(): (m: Material)
    ensures m.name == "HaloParticleMaterial"
    ensures WellFormed(m.graph)
    ensures Kinds(m.graph) == [MixShader, BsdfTransparent, Emission, OutputMaterial]
    ensures |m.graph.links| == 3
    ensures Feeds(m.graph, BsdfTransparent, "BSDF", MixShader, At(1))
    ensures Feeds(m.graph, Emission, "Emission", MixShader, At(2))
    ensures Feeds(m.graph, MixShader, "Shader", OutputMaterial, Named("Surface"))
    ensures HasSetting(m.graph, MixShader, "Fac", Scalar(HaloMixFac))
    ensures HasSetting(m.graph, Emission, "Strength", Scalar(HaloEmissionStrength))
    ensures HasSetting(m.graph, Emission, "Color", Color(WarmWhite))
  {
    var g := HaloGraph();
    HaloWellFormed();
    assert g.links[0].from == 1 && g.links[1].from == 2 && g.links[2].from == 0;
    assert g.nodes[0].values["Fac"] == Scalar(HaloMixFac);
    assert g.nodes[2].values["Strength"] == Scalar(HaloEmissionStrength);
    assert g.nodes[2].values["Color"] == Color(WarmWhite);
    Material("HaloParticleMaterial", g)
  }
}

=== FILE: protocol.dfy ===
/** The protocol envelope (protocol_manager.py): rendering data wrapped in
    a "System-Diagnostic" header, and a conduit that hands the payload to
    the presence callback only when the header's payload type matches. */
module Protocol {
  import opened Common
  import opened Json

  const ExpectedPayloadType: Value := Str("Alpha-40")

  /** The header fields, stamped with the clock reading `now`. */
  function Header(now: real): map<string, Value> {
    map[
      "protocol" := Str("System-Diagnostic"),
      "carrier" := Str("Safety"),
      "timestamp" := Num(now),
      "payload_type" := ExpectedPayloadType]
  }

  /** `encapsulate_alpha_40_data`: exactly a header and the data, unchanged. */
  function Encapsulate(data: Value, now: real): (env: Value)
    ensures env.Obj? && env.fields.Keys == {"header", "payload"}
    ensures env.fields["payload"] == data
    ensures env.fields["header"].Obj?
    ensures env.fields["header"].fields.Keys == {"protocol", "carrier", "timestamp", "payload_type"}
    ensures env.fields["header"].fields["protocol"] == Str("System-Diagnostic")
    ensures env.fields["header"].fields["carrier"] == Str("Safety")
    ensures env.fields["header"].fields["timestamp"] == Num(now)
    ensures env.fields["header"].fields["payload_type"] == ExpectedPayloadType
  {
    Obj(map["header" := Obj(Header(now)), "payload" := data])
  }

  /** What the conduit does: call the callback once with a payload, reject
      the envelope (printing an error, raising nothing), or raise. */
  datatype Dispatch = Delivered(payload: Value) | Rejected | Raised(error: PyError)

  /** `envelope.get("header", {}).get("payload_type")`: absent keys give
      None (JSON null); a non-dict envelope or header raises AttributeError. */
  function PayloadType(env: Value): (r: Result<Value>)
    ensures r.Ok? <==> env.Obj? && ("header" !in env.fields || env.fields["header"].Obj?)
    ensures env.Obj? && "header" !in env.fields ==> r == Ok(Null)
    ensures r.Ok? && "header" in env.fields && "payload_type" in env.fields["header"].fields ==>
      r.value == env.fields["header"].fields["payload_type"]
    ensures r.Ok? && "header" in env.fields && "payload_type" !in env.fields["header"].fields ==> r.value == Null
    ensures r.Err? ==> r.error.AttributeError?
  {
    var header :- Get(env, "header", Obj(map[]));
    Get(header, "payload_type", Null)
  }

  /** `establish_eden_ppl_conduit`. */
  function Conduit(env: Value): (d: Dispatch)
    ensures d.Delivered? <==> PayloadType(env) == Ok(ExpectedPayloadType) && "payload" in env.fields
    ensures d.Delivered? ==> d.payload == env.fields["payload"]
    ensures d.Rejected? <==> PayloadType(env).Ok? && PayloadType(env).value != ExpectedPayloadType
    ensures PayloadType(env) == Ok(ExpectedPayloadType) && "payload" !in env.fields ==> d == Raised(KeyError("payload"))
    ensures PayloadType(env).Err? ==> d == Raised(PayloadType(env).error) && d.error.AttributeError?
  {
    match PayloadType(env)
    case Err(e) => Raised(e)
    case Ok(t) =>
      if t == ExpectedPayloadType then
        match Index(env, "payload")
        case Ok(p) => Delivered(p)
        case Err(e) => Raised(e)
      else Rejected
  }

  /** Round trip: whatever is wrapped is delivered, once and unchanged. */
  lemma EnvelopeRoundTrip(data: Value, now: real)
    ensures Conduit(Encapsulate(data, now)) == Delivered(data)
  {
  }

  /** An envelope whose header is missing, or has no payload type, or any
      payload type other than "Alpha-40", never reaches the callback. */
  lemma MismatchNeverDelivers(env: Value)
    requires env.Obj?
    requires "header" !in env.fields || (env.fields["header"].Obj? &&
      ("payload_type" !in env.fields["header"].fields || env.fields["header"].fields["payload_type"] != ExpectedPayloadType))
    ensures Conduit(env) == Rejected
  {
  }

  /** `initiate_safety_protocol`, with the configuration file's contents
      passed in: the callback receives exactly the whole configuration. */
  function InitiateSafetyProtocol(config: Value, now: real): (d: Dispatch)
    ensures d == Delivered(config)
  {
    EnvelopeRoundTrip(config, now);
    Conduit(Encapsulate(config, now))
  }
}

=== FILE: scene.dfy ===
/** An abstract Blender scene: named objects with a transform, the mesh or
    armature data behind them, material slots, parenting, modifiers, custom
    properties and particle systems. */
module Scene {
  import opened Common
  import opened Json
  import opened Materials
  import opened Keyframes

  datatype Primitive =
    | Cube(size: real)
    | UvSphere(radius: real)
    | IcoSphere(radius: real, subdivisions: nat)
    | VertexMesh(vertices: seq<Vec3>)

  datatype Bone = Bone(name: string, head: Vec3, tail: Vec3)

  datatype ParticleSettings = ParticleSettings(
    name: string,
    count: int,
    frameStart: int,
    frameEnd: int,
    lifetime: int,
    physicsType: string,
    renderType: string,
    instanceObject: string)

  datatype ObjectData =
    | MeshData(primitive: Primitive, materials: seq<Material>)
    | ArmatureData(bones: seq<Bone>, curves: seq<FCurve>)

  datatype Modifier = ArmatureModifier(target: string)

  datatype SceneObject = SceneObject(
    name: string,
    data: ObjectData,
    location: Vec3,
    scale: Vec3,
    parent: Option<string>,
    modifiers: seq<Modifier>,
    props: map<string, Value>,
    particles: seq<ParticleSettings>)

  datatype Scene = Scene(objects: seq<SceneObject>, frameEnd: int)

  const UnitScale: Vec3 := Vec3(1.0, 1.0, 1.0)

  /** A freshly added primitive: unit scale, no parent, no modifiers, no
      custom properties, no particle systems, no materials. */
  function NewMesh(name: string, primitive: Primitive, location: Vec3): SceneObject {
    SceneObject(name, MeshData(primitive, []), location, UnitScale, None, [], map[], [])
  }

  predicate IsMesh(o: SceneObject) {
    o.data.MeshData?
  }

  /** The objects' names, in order. */
  function Names(objs: seq<SceneObject>): seq<string> {
    seq(|objs|, i requires 0 <= i < |objs| => objs[i].name)
  }

  /** Select-all then delete: every object goes, scene settings stay. */
  function Clear(s: Scene): (r: Scene)
    ensures |r.objects| == 0
    ensures r.frameEnd == s.frameEnd
  {
    s.(objects := [])
  }

  /** Apply `f` to the mesh objects of `objs`, leaving every other object as
      it is; the order and number of objects do not change. */
  function MapMeshes(objs: seq<SceneObject>, f: SceneObject -> SceneObject): (r: seq<SceneObject>)
    ensures |r| == |objs|
    ensures forall i :: 0 <= i < |objs| && IsMesh(objs[i]) ==> r[i] == f(objs[i])
    ensures forall i :: 0 <= i < |objs| && !IsMesh(objs[i]) ==> r[i] == objs[i]
  {
    if objs == [] then []
    else [if IsMesh(objs[0]) then f(objs[0]) else objs[0]] + MapMeshes(objs[1..], f)
  }

  function AppendMaterial(o: SceneObject, m: Material): SceneObject {
    match o.data
    case MeshData(p, ms) => o.(data := MeshData(p, ms + [m]))
    case ArmatureData(_, _) => o
  }

  /** `obj.data.materials.append(mat)` for every object of type MESH: each
      mesh gains `m` as its last slot and nothing else about it changes;
      no other object is touched. */
  function BindMaterial(objs: seq<SceneObject>, m: Material): (r: seq<SceneObject>)
    ensures |r| == |objs|
    ensures forall i :: 0 <= i < |objs| ==> r[i].name == objs[i].name && IsMesh(r[i]) == IsMesh(objs[i])
    ensures forall i :: 0 <= i < |objs| && IsMesh(objs[i]) ==>
      && IsMesh(r[i])
      && r[i].data.materials == objs[i].data.materials + [m]
      && r[i].data.primitive == objs[i].data.primitive
      && r[i] == objs[i].(data := r[i].data)
    ensures forall i :: 0 <= i < |objs| && !IsMesh(objs[i]) ==> r[i] == objs[i]
  {
    MapMeshes(objs, o => AppendMaterial(o, m))
  }

  function AttachToArmature(o: SceneObject, armature: string): SceneObject {
    o.(parent := Some(armature), modifiers := o.modifiers + [ArmatureModifier(armature)])
  }

  /** Parent every mesh to the armature and give it an Armature modifier
      driven by it; no other object is touched. */
  function ParentMeshes(objs: seq<SceneObject>, armature: string): (r: seq<SceneObject>)
    ensures |r| == |objs|
    ensures forall i :: 0 <= i < |objs| && IsMesh(objs[i]) ==>
      r[i].parent == Some(armature)
      && r[i].modifiers == objs[i].modifiers + [ArmatureModifier(armature)]
      && r[i] == objs[i].(parent := r[i].parent, modifiers := r[i].modifiers)
    ensures forall i :: 0 <= i < |objs| && !IsMesh(objs[i]) ==> r[i] == objs[i]
  {
    MapMeshes(objs, o => AttachToArmature(o, armature))
  }

  /** Half the vertical extent of a primitive object, after its scale. */
  function HalfHeight(o: SceneObject): real {
    match o.data
    case MeshData(p, _) =>
      (match p
       case Cube(size) => size / 2.0 * o.scale.z
       case UvSphere(r) => r * o.scale.z
       case IcoSphere(r, _) => r * o.scale.z
       case VertexMesh(_) => 0.0)
    case ArmatureData(_, _) => 0.0
  }

  function BottomZ(o: SceneObject): real {
    o.location.z - HalfHeight(o)
  }

  function TopZ(o: SceneObject): real {
    o.location.z + HalfHeight(o)
  }
}

=== FILE: shader_graph.dfy ===
/** A material's node tree: shader nodes with the input values a script set
    on them, and links from a node's named output socket into an input slot
    of another node. Slots are addressed by name (`Surface`, `Volume`) or,
    as the mix shader's two shader inputs are, by position. */
module ShaderGraph {
  import opened Common

  datatype NodeType =
    | Emission
    | BsdfPrincipled
    | BsdfTransparent
    | VolumeScatter
    | MixShader
    | OutputMaterial

  datatype InputValue = Scalar(x: real) | Color(c: Rgba)

  datatype Slot = Named(name: string) | At(index: nat)

  /** A node and the input default values set on it; inputs left at the
      node type's own defaults are absent from `values`. */
  datatype Node = Node(kind: NodeType, values: map<string, InputValue>)

  datatype Link = Link(from: nat, fromSocket: string, to: nat, toSlot: Slot)

  datatype Graph = Graph(nodes: seq<Node>, links: seq<Link>)

  /** The output socket names of each node type. */
  function OutputSockets(k: NodeType): set<string> {
    match k
    case Emission => {"Emission"}
    case BsdfPrincipled => {"BSDF"}
    case BsdfTransparent => {"BSDF"}
    case VolumeScatter => {"Volume"}
    case MixShader => {"Shader"}
    case OutputMaterial => {}
  }

  /** The input slots of each node type that accept a shader. */
  function ShaderSlots(k: NodeType): set<Slot> {
    match k
    case MixShader => {At(1), At(2)}
    case OutputMaterial => {Named("Surface"), Named("Volume")}
    case _ => {}
  }

  /** The value inputs of each node type that the modelled scripts set
      (a subset of the inputs Blender's node types have). */
  function SettableInputs(k: NodeType): set<string> {
    match k
    case Emission => {"Color", "Strength"}
    case BsdfPrincipled => {"Base Color", "IOR", "Roughness", "Transmission Weight"}
    case BsdfTransparent => {"Color"}
    case VolumeScatter => {"Color", "Density", "Anisotropy"}
    case MixShader => {"Fac"}
    case OutputMaterial => {}
  }

  predicate IsSink(n: Node) {
    n.kind == OutputMaterial
  }

  /** Every link joins two existing nodes through sockets their types have. */
  predicate LinksTyped(g: Graph) {
    forall k :: 0 <= k < |g.links| ==>
      && g.links[k].from < |g.nodes|
      && g.links[k].to < |g.nodes|
      && g.links[k].fromSocket in OutputSockets(g.nodes[g.links[k].from].kind)
      && g.links[k].toSlot in ShaderSlots(g.nodes[g.links[k].to].kind)
  }

  /** No input slot is fed by two links. */
  predicate DistinctTargets(g: Graph) {
    forall k, m :: 0 <= k < m < |g.links| ==>
      (g.links[k].to, g.links[k].toSlot) != (g.links[m].to, g.links[m].toSlot)
  }

  predicate ValuesSettable(g: Graph) {
    forall i :: 0 <= i < |g.nodes| ==> g.nodes[i].values.Keys <= SettableInputs(g.nodes[i].kind)
  }

  /** Exactly one node is an output sink. */
  predicate UniqueSink(g: Graph) {
    exists o :: 0 <= o < |g.nodes| && IsSink(g.nodes[o]) &&
      forall j :: 0 <= j < |g.nodes| && IsSink(g.nodes[j]) ==> j == o
  }

  /** Node `i` reaches a sink along at most `fuel` links. */
  predicate Reaches(g: Graph, i: nat, fuel: nat)
    requires LinksTyped(g) && i < |g.nodes|
    decreases fuel
  {
    || IsSink(g.nodes[i])
    || (fuel > 0 && exists k :: 0 <= k < |g.links| && g.links[k].from == i && Reaches(g, g.links[k].to, fuel - 1))
  }

  /** The shape every material the scripts build must have: typed links, one
      sink, no doubly-fed slot, and no node cut off from the sink. */
  predicate WellFormed(g: Graph) {
    && LinksTyped(g)
    && DistinctTargets(g)
    && ValuesSettable(g)
    && UniqueSink(g)
    && forall i :: 0 <= i < |g.nodes| ==> Reaches(g, i, |g.nodes|)
  }

  /** `p` is a sequence of link indices leading from node `i` to a sink. */
  ghost predicate IsPath(g: Graph, i: nat, p: seq<nat>)
    requires LinksTyped(g) && i < |g.nodes|
    decreases |p|
  {
    if |p| == 0 then IsSink(g.nodes[i])
    else
      && p[0] < |g.links|
      && g.links[p[0]].from == i
      && IsPath(g, g.links[p[0]].to, p[1..])
  }

  /** `Reaches` is sound: it only holds when a real path of links exists. */
  lemma {:induction false} ReachesHasPath(g: Graph, i: nat, fuel: nat)
    requires LinksTyped(g) && i < |g.nodes|
    requires Reaches(g, i, fuel)
    ensures exists p :: |p| <= fuel && IsPath(g, i, p)
    decreases fuel
  {
    if IsSink(g.nodes[i]) {
      assert IsPath(g, i, []);
    } else {
      var k :| 0 <= k < |g.links| && g.links[k].from == i && Reaches(g, g.links[k].to, fuel - 1);
      ReachesHasPath(g, g.links[k].to, fuel - 1);
      var p :| |p| <= fuel - 1 && IsPath(g, g.links[k].to, p);
      assert ([k] + p)[1..] == p;
      assert IsPath(g, i, [k] + p);
    }
  }

  /** `Reaches` is complete: any path no longer than the fuel is found. */
  lemma {:induction false} PathReaches(g: Graph, i: nat, p: seq<nat>, fuel: nat)
    requires LinksTyped(g) && i < |g.nodes|
    requires IsPath(g, i, p) && |p| <= fuel
    ensures Reaches(g, i, fuel)
    decreases |p|
  {
    if |p| > 0 {
      PathReaches(g, g.links[p[0]].to, p[1..], fuel - 1);
    }
  }

  /** In a well-formed graph every node lies on a path to the sink. */
  lemma WellFormedNodesHavePaths(g: Graph, i: nat)
    requires WellFormed(g) && i < |g.nodes|
    ensures exists p :: IsPath(g, i, p)
  {
    ReachesHasPath(g, i, |g.nodes|);
  }

  /** A link from `srcKind`'s socket into `slot` of a `dstKind` node. */
  predicate Feeds(g: Graph, srcKind: NodeType, socket: string, dstKind: NodeType, slot: Slot) {
    exists k :: 0 <= k < |g.links| && g.links[k].from < |g.nodes| && g.links[k].to < |g.nodes|
      && g.nodes[g.links[k].from].kind == srcKind
      && g.links[k].fromSocket == socket
      && g.nodes[g.links[k].to].kind == dstKind
      && g.links[k].toSlot == slot
  }

  /** Some node of type `kind` has input `input` set to exactly `v`. */
  predicate HasSetting(g: Graph, kind: NodeType, input: string, v: InputValue) {
    exists i :: 0 <= i < |g.nodes| && g.nodes[i].kind == kind
      && input in g.nodes[i].values && g.nodes[i].values[input] == v
  }

  /** The node types of the graph, in creation order. */
  function Kinds(g: Graph): seq<NodeType> {
    seq(|g.nodes|, i requires 0 <= i < |g.nodes| => g.nodes[i].kind)
  }
}
